=== FILE: README.md ===
# mysql_dbs_backup in Dafny

A functional model of the decision logic inside `mysql_dbs_backup.py`, a
script that dumps a list of MySQL databases with `mysqldump`, zips each dump
into `<YYYYMMDDHHMMSS>_<dbname>.sql.zip`, keeps only the newest few artifacts
per database, and writes one machine-readable `FINAL_STATUS | … | … | … | …`
record per outcome.

Every outside effect becomes an input. These are:

- whether the directory set-up works;
- how `mysqldump --version` ends;
- the connection probe's result and errno;
- the clock;
- how the dump-and-zip block ends;
- the directory listing with modification times, and where each new artifact appears in the next listing;
- which removals fail.

What comes out is data: the FINAL_STATUS records, the exit status and the dump directory left behind.

Modules, one per file, in dependency order:

| file | module | models |
|---|---|---|
| optional.dfy | Optional | `Option` with a default, for unset configuration variables |
| text.dfy | Text | the string operations the script calls (`in`, `endswith`, `replace`, ASCII `upper`), plus `startswith`, used by `os.path.join` and the status-line reader, and string order `<`, used by the ordering lemmas |
| clock.dfy | Clock | local clock readings and the two `strftime` patterns, each with a reader that inverts it |
| naming.dfy | Naming | `os.path.join`/`basename`, `generate_backup_filename`, the temporary dump path of `perform_backup` |
| status.dfy | Status | `write_final_status` and a reader for the line it writes |
| probe.dfy | Probe | `check_database_connection` and its errno classification |
| retention.dfy | Retention | `clean_old_backups` |
| orchestrator.dfy | Orchestrator | `perform_backup`, `error_exit`, the loop of `main` |

Two hazards of the script are modelled as written and exhibited rather than corrected:

- **Substring grouping.** The retention scan groups artifacts by substring, so `db1` also prunes the artifacts of `db10` (`Retention.Db1CapturesDb10`).
- **Whole-path replace.** `str.replace('.zip', '.sql')` rewrites the whole path, so a dump directory named `x.zip` sends the temporary dump to `x.sql/` (`Naming.TempPathLeavesZipDirectory`). No `.zip` is left anywhere in the temporary path (`Naming.TempPathHasNoZip`).

Three behaviours of the script the model keeps as written:

- A failed directory set-up exits with status 1 without any FINAL_STATUS record. It calls `sys.exit(1)` directly, not `error_exit`.
- A failure while compressing, or while removing the temporary dump, is caught by the generic or the `PermissionError` handler and ends the whole run through `error_exit`. It is not a per-database failure. The archive opened before the failure, complete or partial, stays in the dump directory (`Orchestrator.FatalEndsStep`) and is a retention candidate on the next run (`Orchestrator.LeftArchiveIsNewestCandidate`).
- Retention matches the database name as a substring, not delimiter-bounded.

The script's own comments disagree with its code in two places; the model follows the code:

- The `write_final_status` docstring lists seven fields, including a host name and a database name. The line it writes has five: marker, status, timestamp, file name, message.
- The comment above `backup_filename_format` describes `<stamp>_<db>_<host>.sql.zip`. The name written is `<stamp>_<db>.sql.zip`, with no host name.

## Model

| member | source | states |
|---|---|---|
| Text.ReplaceAllAbsent | mysql_dbs_backup.py:122 | for a non-empty pattern, `str.replace` returns a string that does not contain the pattern unchanged |
| Text.ReplaceAllSplit | mysql_dbs_backup.py:122 | `replace` works piecewise across a cut whose right part starts with a character that cannot continue the pattern |
| Clock.FileStamp | mysql_dbs_backup.py:30 | the `%Y%m%d%H%M%S` stamp is exactly 14 decimal digits |
| Clock.LogStamp | mysql_dbs_backup.py:178 | the `%Y-%m-%d %H:%M:%S` stamp is 19 characters with `-`, `-`, a space, `:` and `:` at their fixed places, and with those dropped it is exactly the 14-digit stamp of the same instant; it holds no pipe character |
| Clock.FileStampOrdered | mysql_dbs_backup.py:30 | for years 1000–9999, a strictly later instant has a strictly greater stamp in string order |
| Clock.ParseFileStampRoundTrip | mysql_dbs_backup.py:30 | every valid instant's stamp reads back as that instant |
| Clock.ParseFileStampExact | mysql_dbs_backup.py:30 | whatever reads as an instant is exactly that instant's stamp, so the stamp is injective |
| Clock.ParseLogStampRoundTrip | mysql_dbs_backup.py:178 | every valid instant's FINAL_STATUS timestamp reads back as that instant |
| Clock.ParseLogStampExact | mysql_dbs_backup.py:178 | whatever reads as an instant is exactly that instant's FINAL_STATUS timestamp |
| Naming.Basename | mysql_dbs_backup.py:177 | `os.path.basename` gives the longest slash-free suffix of the path |
| Naming.BasenameOfJoin | mysql_dbs_backup.py:113 | a slash-free name joined onto any directory is the basename of the result |
| Naming.GenerateBackupFilename | mysql_dbs_backup.py:107-113 | the path starts with the dump directory and ends with `_<db>.sql.zip`; the stamp is 14 digits; for a slash-free database name the basename is `<stamp>_<db>.sql.zip` |
| Naming.ArtifactNameRoundTrip | mysql_dbs_backup.py:112 | an artifact basename reads back as the instant and the database it was made from |
| Naming.ParseArtifactNameExact | mysql_dbs_backup.py:112 | whatever reads as an artifact name is exactly the name of the instant and database read |
| Naming.ArtifactNamesSortByTime | mysql_dbs_backup.py:111-113 | for a fixed database and years 1000–9999, a later instant gives a greater basename and a greater full path in string order |
| Naming.TempPathOfArtifact | mysql_dbs_backup.py:122 | when neither the dump directory nor the database name contains `.zip`, the temporary path is the artifact path with only the final `.zip` changed to `.sql`; it is `<stamp>_<db>.sql.sql` in the dump directory |
| Naming.TempPathNotArchive | mysql_dbs_backup.py:122 | the temporary path of any path ending in `.zip` ends in `.sql`, never in `.zip` |
| Naming.TempPathLeavesZipDirectory | mysql_dbs_backup.py:122 | for a parent path without `.zip`, a dump directory `<parent>.zip` puts the temporary dump under `<parent>.sql/` |
| Naming.TempPathHasNoZip | mysql_dbs_backup.py:122 | for every path, the temporary path contains no `.zip` anywhere |
| Status.UpperLabel | mysql_dbs_backup.py:178 | the status words are written `SUCCESS` and `FAILURE` and hold no pipe character |
| Status.FormatStatusLine | mysql_dbs_backup.py:177-178 | the line starts with the `FINAL_STATUS` marker and a field separator, and ends with a field separator followed by the message |
| Status.StatusLineRoundTrip | mysql_dbs_backup.py:177-178 | the line reads back as status, timestamp, file field (basename, or `N/A` when absent or empty) and message in that order, whenever the file field holds no pipe character |
| Status.StatusLineTime | mysql_dbs_backup.py:178 | the timestamp field of a written line reads back as the clock reading it was written at, whenever the file field holds no pipe character |
| Status.FileFieldOfArtifact | mysql_dbs_backup.py:177 | for a slash-free database name, the file field of an artifact's record is its `<stamp>_<db>.sql.zip` basename |
| Probe.Diagnose | mysql_dbs_backup.py:98-103 | errno 1045, 1049 and 2003 are told apart; every other errno is unclassified (both directions) |
| Probe.ConnectionFailureMessage | mysql_dbs_backup.py:97-103 | the message is `Database connection failed for '<db>': `, then the error text unchanged, then the hint for its errno |
| Probe.CheckDatabaseConnection | mysql_dbs_backup.py:96-105 | a failed probe writes exactly one failure record without a backup file, with the fixed head and the hint; a successful one writes none |
| Probe.HintOnlyForKnownErrnos | mysql_dbs_backup.py:98-103 | the hint is empty exactly for errnos other than 1045, 1049, 2003, and then the message is head plus error text |
| Probe.MessageDeterminesDiagnosis | mysql_dbs_backup.py:98-103 | for the same error text, equal messages mean equal classifications |
| Retention.Candidates | mysql_dbs_backup.py:155 | the filtered listing holds only listed entries that end in `.zip` and contain the database name |
| Retention.CandidatesCount | mysql_dbs_backup.py:155 | the filter keeps each candidate entry exactly as often as the listing holds it and drops every other entry |
| Retention.CandidatesMembership | mysql_dbs_backup.py:155 | an entry is a candidate exactly when it is listed, ends in `.zip` and contains the database name |
| Retention.SortByMtime | mysql_dbs_backup.py:154-157 | the sorted candidates are a rearrangement of the candidates in ascending modification time |
| Retention.SortStable | mysql_dbs_backup.py:154-157 | the sort is stable: entries with equal modification times keep listing order |
| Retention.PlanDeletions | mysql_dbs_backup.py:158-159 | with `M` candidates and limit `N >= 0`, `M - N` are slated when `M > N` and none otherwise; a negative limit slates all `M`; slated and kept together rearrange the candidates |
| Retention.PlanKeepsNewest | mysql_dbs_backup.py:154-159 | every kept candidate is at least as new as every slated one |
| Retention.PlanDoomsOnlyCandidates | mysql_dbs_backup.py:155-159 | only listed candidates are slated for removal |
| Retention.RemoveEach | mysql_dbs_backup.py:159-166 | every slated name is attempted, in order; exactly those listed as failing fail, with their error |
| Retention.UnlinkCount | mysql_dbs_backup.py:161 | removal drops every entry with a removed name and keeps every other entry as often as it was listed |
| Retention.CleanOldBackups | mysql_dbs_backup.py:149-170 | a failing listing removes nothing; `M <= N` attempts nothing; otherwise the slated names are attempted in order and the directory loses exactly the names removed |
| Retention.NonCandidatesNeverRemoved | mysql_dbs_backup.py:155-161 | an entry that is not a candidate is never removed, and nothing appears that was not listed |
| Retention.PruneAttemptsOldestSurplus | mysql_dbs_backup.py:158-168 | exactly `M - N` removals are attempted when `M > N >= 0`, none when `M <= N`, `M` when `N < 0`; they hit the oldest candidates first |
| Retention.FailuresDoNotStopRemovals | mysql_dbs_backup.py:159-166 | the attempted names do not depend on which removals fail |
| Retention.AllRemovalsSucceedLeavesLimit | mysql_dbs_backup.py:154-161 | over distinct names, when every attempt succeeds, the candidates left are exactly the kept ones: `min(M, N)` |
| Retention.NewestCandidateSurvives | mysql_dbs_backup.py:154-161 | a candidate strictly newer than every other entry survives any pass with `N >= 1`, whatever removals fail |
| Retention.SubstringCapturesOtherDatabase | mysql_dbs_backup.py:155 | when `db` occurs in `other`, every artifact of `other` is a candidate for `db` although it reads back as `other`'s |
| Retention.Db1CapturesDb10 | mysql_dbs_backup.py:155 | the artifacts of `db10` are retention candidates for `db1` |
| Retention.OwnArtifactIsCandidate | mysql_dbs_backup.py:155 | every artifact of a database is a retention candidate for it |
| Orchestrator.Targets | mysql_dbs_backup.py:194-205 | slots are visited from the first and the loop stops at the first unset or empty name; host defaults to `localhost` and the limit to 3 only when unset |
| Orchestrator.PerformBackup | mysql_dbs_backup.py:115-147 | success returns exactly `Backup successful: <path>` and writes nothing; a non-zero exit returns failure and writes one failure record naming the path; a permission or unexpected error ends the run with one failure record naming the path |
| Orchestrator.Store | mysql_dbs_backup.py:131 | writing an artifact adds it to the directory, replaces any file of the same name, and lists it at the position the step input chooses |
| Orchestrator.TieListingDecidesNewArtifact | mysql_dbs_backup.py:131-161 | with a limit of one and another candidate of equal modification time, the new artifact is removed when listed first and kept when listed second |
| Orchestrator.StepRecords | mysql_dbs_backup.py:104-219 | per database: one probe record when the connection fails, then one record, or two identical ones on a non-zero dump exit; exactly one SUCCESS record when the dump succeeds |
| Orchestrator.DumpFailureContinues | mysql_dbs_backup.py:139-143 | a non-zero dump exit does not end the run: two identical failure records with the path, then the retention pass |
| Orchestrator.FatalEndsStep | mysql_dbs_backup.py:120-147 | a permission or unexpected error writes one failure record with the matching message and the path and skips retention; raised before the archive is opened it leaves the directory as it was, raised after it leaves the archive in place of any file of that name and changes nothing else |
| Orchestrator.LeftArchiveIsNewestCandidate | mysql_dbs_backup.py:131-155 | an archive left behind by a fatal error is a retention candidate of its database, and the newest one when its modification time is newest |
| Orchestrator.ProbeNeverAborts | mysql_dbs_backup.py:209-216 | the connection result changes only the probe's own record, never whether the run goes on nor the directory |
| Orchestrator.NewArtifactSurvivesRetention | mysql_dbs_backup.py:216-223 | a successful backup with limit at least 1 keeps its own, newest artifact through the retention pass |
| Orchestrator.BackupThenPruneKeepsLimit | mysql_dbs_backup.py:216-223 | with `M` artifacts present, a new backup and a clean pass leave exactly `min(M + 1, N)` candidates, the new one among them |
| Orchestrator.StepKeepsDistinctNames | mysql_dbs_backup.py:131-161 | a step keeps the directory's names distinct |
| Orchestrator.RunTargets | mysql_dbs_backup.py:194-226 | the processed databases are a prefix of the targets, in order; a run that is not cut short processes all of them |
| Orchestrator.RunStopsAtFirstFatal | mysql_dbs_backup.py:194-226 | the loop stops right after the first fatal dump, whose group ends in the `error_exit` record; with no fatal dump every target is processed |
| Orchestrator.SuccessesPerDatabase | mysql_dbs_backup.py:216-219 | each processed database has one SUCCESS record when its dump succeeds and none otherwise |
| Orchestrator.Main | mysql_dbs_backup.py:181-228 | exit status 0 exactly when set-up and tool check pass and no dump is fatal, and then every target is processed; a failed tool check writes one failure record without a file; a failed set-up writes none |
| Orchestrator.FatalDumpEndsRun | mysql_dbs_backup.py:62-68 | a fatal dump of the `k`-th target ends the run with status 1 after exactly `k + 1` databases, the last group ending in the `error_exit` record |
| Orchestrator.AtMostOneSuccessPerDatabase | mysql_dbs_backup.py:216-219 | every processed database has at most one SUCCESS record, and one exactly when its dump succeeds |

## Left out

- The `mysqldump` and `mysqldump --version` subprocesses. Only how each ends is modelled.
- The MySQL connection. The probe's outcome, errno and error text are inputs.
- The ZIP compression and the bytes of the dump. They are library behaviour with no decision in the script.
- Logging. This covers the rotating log file, the verbose console handler and every `logger` call except the FINAL_STATUS records, which are the modelled output.
- Configuration reading (`load_dotenv`, `os.getenv`) and the `int(...)` parse of `DB<i>_MAX_BACKUPS`.
  - Slots are records of already-parsed optional values.
  - A limit that does not parse would raise outside any handler; that case is not modelled.
  - User and password are not modelled, because they only pass through to the external calls.
- The clock, the directory listing, modification times and removals. These are inputs.
  - A modification time is an integer: only its order matters here, not the float value. On equal times, the stable sort keeps listing order, so the listing order decides which candidate is removed (`Orchestrator.TieListingDecidesNewArtifact`).
  - Both `datetime.now()` readings are parameters, one for the artifact name and one for each FINAL_STATUS line.
- Orchestrator.Store: where a new artifact appears in the next listing is a step input, but the other files keep the relative order of the first listing. `os.listdir` promises no order, so a later listing could also reorder the older files among themselves. That matters only on equal modification times.
- Clock.FileStampOrdered: the ordering lemmas, and `Naming.ArtifactNamesSortByTime`, are about the local wall-clock reading `datetime.now()` returns, not about real time. After a daylight-saving fall-back or a clock step back, a later backup can get a smaller stamp, and the names of one database then stop sorting by creation time.
- Clock.Valid: years are limited to 1000–9999, because `%Y` is not four digits outside that range on every platform. Day numbers are bounded by 31 without month lengths, because the stamps only format them.
- The temporary `.sql.sql` file left behind after a non-zero dump exit or a fatal error is not tracked in the directory. `Naming.TempPathNotArchive` shows it never ends in `.zip`, so retention never considers it.
- Orchestrator.ProcessDatabase: the artifact joins the modelled directory only when the database name holds no `/`. Otherwise it lands outside the dump directory, which is not modelled.
- Orchestrator.PerformBackup: stderr is taken as already-decoded text. Non-UTF-8 stderr makes `decode` raise inside the handler and crash the run; that case is not modelled.
- Exceptions that no handler catches end the run with status 1 and no record. Only the tool check's is modelled (`ToolCrashed`). Others, such as a non-`mysql.connector.Error` from the probe, are not.
- Orchestrator.Main requires one step input per target, since every processed database consumes one.

=== FILE: clock.dfy ===
/** Calendar instants as the script reads them from `datetime.now()`, and the
    two `strftime` renderings it uses: the 14-digit `%Y%m%d%H%M%S` stamp that
    heads every artifact name, and the `%Y-%m-%d %H:%M:%S` stamp of every
    FINAL_STATUS line. */
module Clock {
  import opened Optional
  import opened Text

  /** A local wall-clock reading to second precision, as the naive
      `datetime.now()` gives it: no time zone, so a daylight-saving
      fall-back or a clock step back can make a later reading compare
      earlier. */
  datatype DateTime = DateTime(year: nat, month: nat, day: nat, hour: nat, minute: nat, second: nat)

  /** The instants the model covers: four-digit years (so that `%Y` is
      exactly four characters wide) and in-range fields. The day is only
      bounded by 31; month lengths play no part in naming or ordering. */
  predicate Valid(t: DateTime) {
    && 1000 <= t.year <= 9999
    && 1 <= t.month <= 12
    && 1 <= t.day <= 31
    && t.hour <= 23
    && t.minute <= 59
    && t.second <= 59
  }

  /** Field-by-field order of readings: `a` reads strictly earlier than `b`. */
  predicate Before(a: DateTime, b: DateTime) {
    || a.year < b.year
    || (a.year == b.year && a.month < b.month)
    || (a.year == b.year && a.month == b.month && a.day < b.day)
    || (a.year == b.year && a.month == b.month && a.day == b.day && a.hour < b.hour)
    || (a.year == b.year && a.month == b.month && a.day == b.day && a.hour == b.hour
        && a.minute < b.minute)
    || (a.year == b.year && a.month == b.month && a.day == b.day && a.hour == b.hour
        && a.minute == b.minute && a.second < b.second)
  }

  // ---------------------------------------------------------------------
  // Fixed-width decimal fields
  // ---------------------------------------------------------------------

  function Pow10(n: nat): (p: nat)
    ensures p >= 1
  {
    if n == 0 then 1 else 10 * Pow10(n - 1)
  }

  predicate IsDigit(c: char) {
    '0' <= c <= '9'
  }

  predicate AllDigits(s: string) {
    forall i :: 0 <= i < |s| ==> IsDigit(s[i])
  }

  function DigitChar(d: nat): (c: char)
    requires d < 10
    ensures IsDigit(c)
  {
    (48 + d) as char
  }

  /** The low `width` decimal digits of `n`, zero-padded on the left: the
      rendering of a `%Y` (width 4) or `%m`, `%d`, `%H`, `%M`, `%S` (width 2)
      field. */
  function Digits(n: nat, width: nat): (r: string)
    ensures |r| == width
    ensures AllDigits(r)
  {
    if width == 0 then "" else Digits(n / 10, width - 1) + [DigitChar(n % 10)]
  }

  /** The number a string of decimal digits denotes. */
  function DigitsValue(s: string): (n: nat)
    requires AllDigits(s)
    ensures n < Pow10(|s|)
  {
    if |s| == 0 then 0
    else DigitsValue(s[..|s| - 1]) * 10 + (s[|s| - 1] as int - 48)
  }

  /** Rendering a number that fits and reading it back gives the number. */
  lemma {:induction false} DigitsRoundTrip(n: nat, width: nat)
    requires n < Pow10(width)
    ensures DigitsValue(Digits(n, width)) == n
    decreases width
  {
    if width > 0 {
      var s := Digits(n, width);
      assert s[..|s| - 1] == Digits(n / 10, width - 1);
      DigitsRoundTrip(n / 10, width - 1);
    }
  }

  /** Reading a digit string and rendering it at the same width gives the
      string back: the rendering is the only one of that width. */
  lemma {:induction false} DigitsOfValue(s: string)
    requires AllDigits(s)
    ensures Digits(DigitsValue(s), |s|) == s
    decreases |s|
  {
    if |s| > 0 {
      var init := s[..|s| - 1];
      var d := s[|s| - 1] as int - 48;
      DigitsOfValue(init);
      var n := DigitsValue(s);
      assert n / 10 == DigitsValue(init) && n % 10 == d;
      assert s == init + [s[|s| - 1]];
    }
  }

  /** Appending one decimal digit to a number appends one character. */
  lemma DigitsAppendOne(a: nat, c: nat, width: nat)
    requires c < 10
    ensures Digits(a * 10 + c, width + 1) == Digits(a, width) + [DigitChar(c)]
  {
    assert (a * 10 + c) / 10 == a;
    assert (a * 10 + c) % 10 == c;
  }

  /** Appending a two-digit field to a number appends its two-character
      rendering. */
  lemma DigitsAppendTwo(a: nat, b: nat, width: nat)
    requires b < 100
    ensures Digits(a * 100 + b, width + 2) == Digits(a, width) + Digits(b, 2)
  {
    assert a * 100 + b == (a * 10 + b / 10) * 10 + b % 10;
    DigitsAppendOne(a * 10 + b / 10, b % 10, width + 1);
    DigitsAppendOne(a, b / 10, width);
    DigitsAppendOne(0, b / 10, 0);
    DigitsAppendOne(b / 10, b % 10, 1);
  }

  /** Fixed-width renderings order like the numbers they render. */
  lemma {:induction false} DigitsMonotone(a: nat, b: nat, width: nat)
    requires a < b < Pow10(width)
    ensures LexLess(Digits(a, width), Digits(b, width))
    decreases width
  {
    assert width > 0;
    var ha, hb := Digits(a / 10, width - 1), Digits(b / 10, width - 1);
    if a / 10 < b / 10 {
      DigitsMonotone(a / 10, b / 10, width - 1);
      LexLessEqualLengthHeads(ha, hb, [DigitChar(a % 10)], [DigitChar(b % 10)]);
    } else {
      assert a / 10 == b / 10 && a % 10 < b % 10;
      assert LexLess([DigitChar(a % 10)], [DigitChar(b % 10)]);
      LexLessCommonPrefix(ha, [DigitChar(a % 10)], [DigitChar(b % 10)]);
    }
  }

  // ---------------------------------------------------------------------
  // The two strftime patterns
  // ---------------------------------------------------------------------

  /** `strftime("%Y%m%d%H%M%S")`. */
  function FileStamp(t: DateTime): (s: string)
    ensures |s| == 14
    ensures AllDigits(s)
  {
    Digits(t.year, 4) + Digits(t.month, 2) + Digits(t.day, 2)
      + Digits(t.hour, 2) + Digits(t.minute, 2) + Digits(t.second, 2)
  }

  /** The separators of a `%Y-%m-%d %H:%M:%S` stamp, at their fixed
      positions in a 19-character string. */
  predicate LogShape(s: string) {
    && |s| == 19
    && s[4] == '-' && s[7] == '-' && s[10] == ' ' && s[13] == ':' && s[16] == ':'
  }

  /** A 19-character stamp with its five separators dropped. */
  function Compact(s: string): (c: string)
    requires |s| == 19
    ensures |c| == 14
  {
    s[0..4] + s[5..7] + s[8..10] + s[11..13] + s[14..16] + s[17..19]
  }

  /** `strftime("%Y-%m-%d %H:%M:%S")`: the same six fields as the artifact
      stamp, in the same order, separated by `-`, `-`, a space, `:` and `:`. */
  function LogStamp(t: DateTime): (s: string)
    ensures LogShape(s)
    ensures Compact(s) == FileStamp(t)
    ensures '|' !in s
  {
    var y, mo, d, h, mi, se := Digits(t.year, 4), Digits(t.month, 2), Digits(t.day, 2),
      Digits(t.hour, 2), Digits(t.minute, 2), Digits(t.second, 2);
    var r := y + "-" + mo + "-" + d + " " + h + ":" + mi + ":" + se;
    assert r[0..4] == y && r[5..7] == mo && r[8..10] == d;
    assert r[11..13] == h && r[14..16] == mi && r[17..19] == se;
    assert forall i :: 0 <= i < |r| ==> r[i] != '|';
    r
  }

  /** Two stamps of the same shape that agree once the separators are
      dropped are the same string. */
  lemma CompactDetermines(a: string, b: string)
    requires LogShape(a) && LogShape(b)
    requires Compact(a) == Compact(b)
    ensures a == b
  {
    var ca := Compact(a);
    assert a[0..4] == ca[0..4] == b[0..4];
    assert a[5..7] == ca[4..6] == b[5..7];
    assert a[8..10] == ca[6..8] == b[8..10];
    assert a[11..13] == ca[8..10] == b[11..13];
    assert a[14..16] == ca[10..12] == b[14..16];
    assert a[17..19] == ca[12..14] == b[17..19];
    assert a == a[0..4] + [a[4]] + a[5..7] + [a[7]] + a[8..10] + [a[10]] + a[11..13] + [a[13]]
      + a[14..16] + [a[16]] + a[17..19];
    assert b == b[0..4] + [b[4]] + b[5..7] + [b[7]] + b[8..10] + [b[10]] + b[11..13] + [b[13]]
      + b[14..16] + [b[16]] + b[17..19];
  }

  /** The instant read as one decimal number, field by field. */
  function Encode(t: DateTime): nat {
    ((((t.year * 100 + t.month) * 100 + t.day) * 100 + t.hour) * 100 + t.minute) * 100 + t.second
  }

  lemma FileStampIsEncoding(t: DateTime)
    requires Valid(t)
    ensures FileStamp(t) == Digits(Encode(t), 14)
  {
    var e2 := t.year * 100 + t.month;
    var e3 := e2 * 100 + t.day;
    var e4 := e3 * 100 + t.hour;
    var e5 := e4 * 100 + t.minute;
    assert Encode(t) == e5 * 100 + t.second;
    var y, mo, d, h, mi, se := Digits(t.year, 4), Digits(t.month, 2), Digits(t.day, 2),
      Digits(t.hour, 2), Digits(t.minute, 2), Digits(t.second, 2);
    DigitsAppendTwo(t.year, t.month, 4);
    assert Digits(e2, 6) == y + mo;
    DigitsAppendTwo(e2, t.day, 6);
    assert Digits(e3, 8) == y + mo + d;
    DigitsAppendTwo(e3, t.hour, 8);
    assert Digits(e4, 10) == y + mo + d + h;
    DigitsAppendTwo(e4, t.minute, 10);
    assert Digits(e5, 12) == y + mo + d + h + mi;
    DigitsAppendTwo(e5, t.second, 12);
    assert Digits(e5 * 100 + t.second, 14) == y + mo + d + h + mi + se;
  }

  lemma EncodeMonotone(a: DateTime, b: DateTime)
    requires Valid(a) && Valid(b)
    requires Before(a, b)
    ensures Encode(a) < Encode(b)
  {
  }

  lemma EncodeFits(t: DateTime)
    requires Valid(t)
    ensures Encode(t) < Pow10(14)
  {
    assert Pow10(14) == 100000000000000;
  }

  /** A strictly later instant has a strictly greater 14-digit stamp in
      string order. */
  lemma FileStampOrdered(a: DateTime, b: DateTime)
    requires Valid(a) && Valid(b)
    requires Before(a, b)
    ensures LexLess(FileStamp(a), FileStamp(b))
  {
    FileStampIsEncoding(a);
    FileStampIsEncoding(b);
    EncodeMonotone(a, b);
    EncodeFits(b);
    DigitsMonotone(Encode(a), Encode(b), 14);
  }

  // ---------------------------------------------------------------------
  // Reading a stamp back
  // ---------------------------------------------------------------------

  /** The instant a 14-digit stamp denotes, if it is one. */
  function ParseFileStamp(s: string): (r: Option<DateTime>)
    ensures r.Some? ==> Valid(r.value)
  {
    if |s| == 14 && AllDigits(s) then
      var t := DateTime(DigitsValue(s[0..4]), DigitsValue(s[4..6]), DigitsValue(s[6..8]),
                        DigitsValue(s[8..10]), DigitsValue(s[10..12]), DigitsValue(s[12..14]));
      if Valid(t) then Some(t) else None
    else None
  }

  /** Every valid instant's stamp reads back as that instant. */
  lemma ParseFileStampRoundTrip(t: DateTime)
    requires Valid(t)
    ensures ParseFileStamp(FileStamp(t)) == Some(t)
  {
    var s := FileStamp(t);
    assert s[0..4] == Digits(t.year, 4);
    assert s[4..6] == Digits(t.month, 2);
    assert s[6..8] == Digits(t.day, 2);
    assert s[8..10] == Digits(t.hour, 2);
    assert s[10..12] == Digits(t.minute, 2);
    assert s[12..14] == Digits(t.second, 2);
    assert Pow10(4) == 10000 && Pow10(2) == 100;
    DigitsRoundTrip(t.year, 4);
    DigitsRoundTrip(t.month, 2);
    DigitsRoundTrip(t.day, 2);
    DigitsRoundTrip(t.hour, 2);
    DigitsRoundTrip(t.minute, 2);
    DigitsRoundTrip(t.second, 2);
  }

  /** Whatever reads as an instant is exactly that instant's stamp. */
  lemma ParseFileStampExact(s: string)
    requires ParseFileStamp(s).Some?
    ensures FileStamp(ParseFileStamp(s).value) == s
  {
    DigitsOfValue(s[0..4]);
    DigitsOfValue(s[4..6]);
    DigitsOfValue(s[6..8]);
    DigitsOfValue(s[8..10]);
    DigitsOfValue(s[10..12]);
    DigitsOfValue(s[12..14]);
    assert s == s[0..4] + s[4..6] + s[6..8] + s[8..10] + s[10..12] + s[12..14];
  }

  /** The instant a FINAL_STATUS timestamp denotes, if it is one. */
  function ParseLogStamp(s: string): (r: Option<DateTime>)
    ensures r.Some? ==> Valid(r.value)
  {
    if LogShape(s) then ParseFileStamp(Compact(s)) else None
  }

  /** Every valid instant's FINAL_STATUS timestamp reads back as that
      instant. */
  lemma ParseLogStampRoundTrip(t: DateTime)
    requires Valid(t)
    ensures ParseLogStamp(LogStamp(t)) == Some(t)
  {
    ParseFileStampRoundTrip(t);
  }

  /** Whatever reads as an instant is exactly that instant's FINAL_STATUS
      timestamp. */
  lemma ParseLogStampExact(s: string)
    requires ParseLogStamp(s).Some?
    ensures LogStamp(ParseLogStamp(s).value) == s
  {
    var t := ParseLogStamp(s).value;
    ParseFileStampExact(Compact(s));
    CompactDetermines(LogStamp(t), s);
  }
}

=== FILE: naming.dfy ===
/** Artifact naming: `generate_backup_filename` builds
    `<dump dir>/<YYYYMMDDHHMMSS>_<dbname>.sql.zip`, and `perform_backup`
    derives the raw dump's temporary path from it with
    `backup_file.replace('.zip', '.sql')`. Paths are POSIX paths, joined and
    split the way `os.path.join` and `os.path.basename` do it. */
module Naming {
  import opened Optional
  import opened Text
  import opened Clock

  // ---------------------------------------------------------------------
  // POSIX path helpers
  // ---------------------------------------------------------------------

  /** `os.path.join(dir, name)`: an absolute `name` replaces `dir`; otherwise
      a `/` is inserted unless `dir` is empty or already ends in one. */
  function Join(dir: string, name: string): string {
    if StartsWith(name, "/") then name
    else if dir == "" || EndsWith(dir, "/") then dir + name
    else dir + "/" + name
  }

  /** `os.path.basename(path)`: the longest slash-free suffix. */
  function Basename(path: string): (b: string)
    ensures '/' !in b
    ensures EndsWith(path, b)
    ensures |b| == |path| || path[|path| - |b| - 1] == '/'
    decreases |path|
  {
    if |path| == 0 || path[|path| - 1] == '/' then ""
    else
      var init := path[..|path| - 1];
      var b := Basename(init) + [path[|path| - 1]];
      assert path[|path| - |b|..] == init[|init| - |b| + 1..] + [path[|path| - 1]];
      b
  }

  /** A slash-free name placed after a directory prefix is its own basename. */
  lemma {:induction false} BasenameAfterPrefix(prefix: string, name: string)
    requires '/' !in name
    requires prefix == "" || EndsWith(prefix, "/")
    ensures Basename(prefix + name) == name
    decreases |name|
  {
    var p := prefix + name;
    if |name| > 0 {
      var init := name[..|name| - 1];
      var last := name[|name| - 1];
      assert p == (prefix + init) + [last];
      assert p[|p| - 1] == last && last != '/';
      assert p[..|p| - 1] == prefix + init;
      assert Basename(p) == Basename(prefix + init) + [last];
      BasenameAfterPrefix(prefix, init);
      assert name == init + [last];
    } else {
      assert p == prefix;
    }
  }

  /** Joining a slash-free name onto any directory keeps it as the basename. */
  lemma BasenameOfJoin(dir: string, name: string)
    requires '/' !in name
    ensures Basename(Join(dir, name)) == name
  {
    if |name| > 0 {
      assert name[0] != '/';
      assert !StartsWith(name, "/");
    }
    if dir == "" || EndsWith(dir, "/") {
      BasenameAfterPrefix(dir, name);
    } else {
      assert dir + "/" + name == (dir + "/") + name;
      assert EndsWith(dir + "/", "/");
      BasenameAfterPrefix(dir + "/", name);
    }
  }

  /** A relative name is appended to a directory-dependent prefix. */
  lemma JoinRelative(dir: string, name: string)
    requires |name| > 0 && name[0] != '/'
    ensures Join(dir, name) == JoinPrefix(dir) + name
  {
    assert !StartsWith(name, "/");
  }

  /** What `Join` puts in front of a relative name. */
  function JoinPrefix(dir: string): string {
    if dir == "" || EndsWith(dir, "/") then dir else dir + "/"
  }

  // ---------------------------------------------------------------------
  // Artifact names
  // ---------------------------------------------------------------------

  /** The extension pair every artifact ends with. */
  const ArtifactSuffix: string := ".sql.zip"

  /** `<YYYYMMDDHHMMSS>_<dbname>.sql.zip`, the basename of an artifact made
      at instant `t`. */
  function ArtifactName(t: DateTime, db: string): string {
    FileStamp(t) + "_" + db + ArtifactSuffix
  }

  /** `generate_backup_filename`: the artifact's full path inside the dump
      directory, paired with the 14-digit stamp. The clock reading `now` is
      the value of `datetime.now()`. */
  function GenerateBackupFilename(dumpDir: string, db: string, now: DateTime): (r: (string, string))
    ensures |r.1| == 14 && AllDigits(r.1)
    ensures StartsWith(r.0, dumpDir)
    ensures EndsWith(r.0, "_" + db + ArtifactSuffix)
    ensures '/' !in db ==> Basename(r.0) == r.1 + "_" + db + ArtifactSuffix
  {
    var name := ArtifactName(now, db);
    assert name[0] == FileStamp(now)[0] && IsDigit(name[0]);
    JoinRelative(dumpDir, name);
    var path := Join(dumpDir, name);
    assert path == JoinPrefix(dumpDir) + FileStamp(now) + ("_" + db + ArtifactSuffix);
    ArtifactBasename(dumpDir, now, db);
    (path, FileStamp(now))
  }

  /** A slash-free database name keeps the whole artifact name as the
      basename of its path. */
  lemma ArtifactBasename(dumpDir: string, now: DateTime, db: string)
    ensures '/' !in db ==> Basename(Join(dumpDir, ArtifactName(now, db))) == ArtifactName(now, db)
  {
    if '/' !in db {
      var name := ArtifactName(now, db);
      assert forall i :: 0 <= i < 14 ==> FileStamp(now)[i] != '/';
      assert '/' !in name;
      BasenameOfJoin(dumpDir, name);
    }
  }

  /** An artifact name taken apart: the instant and the database name. */
  datatype ArtifactId = ArtifactId(stamp: DateTime, db: string)

  /** Reads an artifact basename back by its fixed layout: 14 stamp digits,
      an underscore, the database name, `.sql.zip`. This is the exact,
      delimiter-bounded grouping the retention scan does not use. */
  function ParseArtifactName(name: string): (r: Option<ArtifactId>)
    ensures r.Some? ==> Valid(r.value.stamp)
  {
    if |name| >= 23 && name[14] == '_' && EndsWith(name, ArtifactSuffix) then
      match ParseFileStamp(name[..14])
      case Some(t) => Some(ArtifactId(t, name[15..|name| - 8]))
      case None => None
    else None
  }

  /** Every artifact name reads back as the instant and database it was made
      from. */
  lemma ArtifactNameRoundTrip(t: DateTime, db: string)
    requires Valid(t)
    ensures ParseArtifactName(ArtifactName(t, db)) == Some(ArtifactId(t, db))
  {
    var name := ArtifactName(t, db);
    assert name[..14] == FileStamp(t);
    assert name[14] == '_';
    assert name[15..|name| - 8] == db;
    assert name[|name| - 8..] == ArtifactSuffix;
    ParseFileStampRoundTrip(t);
  }

  /** Whatever reads as an artifact name is exactly that artifact's name. */
  lemma ParseArtifactNameExact(name: string)
    requires ParseArtifactName(name).Some?
    ensures ArtifactName(ParseArtifactName(name).value.stamp, ParseArtifactName(name).value.db) == name
  {
    ParseFileStampExact(name[..14]);
    assert name == name[..14] + "_" + name[15..|name| - 8] + name[|name| - 8..];
  }

  /** For a fixed database, a strictly later instant gives a strictly greater
      artifact basename and a strictly greater full path in string order,
      so sorting names sorts artifacts by age. */
  lemma ArtifactNamesSortByTime(dumpDir: string, db: string, a: DateTime, b: DateTime)
    requires Valid(a) && Valid(b)
    requires Before(a, b)
    ensures LexLess(ArtifactName(a, db), ArtifactName(b, db))
    ensures LexLess(GenerateBackupFilename(dumpDir, db, a).0, GenerateBackupFilename(dumpDir, db, b).0)
  {
    var tail := "_" + db + ArtifactSuffix;
    assert ArtifactName(a, db) == FileStamp(a) + tail;
    assert ArtifactName(b, db) == FileStamp(b) + tail;
    FileStampOrdered(a, b);
    LexLessEqualLengthHeads(FileStamp(a), FileStamp(b), tail, tail);
    assert IsDigit(ArtifactName(a, db)[0]) && IsDigit(ArtifactName(b, db)[0]);
    JoinRelative(dumpDir, ArtifactName(a, db));
    JoinRelative(dumpDir, ArtifactName(b, db));
    LexLessCommonPrefix(JoinPrefix(dumpDir), ArtifactName(a, db), ArtifactName(b, db));
  }

  // ---------------------------------------------------------------------
  // The temporary dump path
  // ---------------------------------------------------------------------

  /** `backup_file.replace('.zip', '.sql')`: every `.zip` in the whole path is
      rewritten, not only the final extension. */
  function TempDumpPath(backupFile: string): string {
    ReplaceAll(backupFile, ".zip", ".sql")
  }

  lemma ReplaceZipOnSql()
    ensures ReplaceAll(".sql", ".zip", ".sql") == ".sql"
    ensures ReplaceAll(".zip", ".zip", ".sql") == ".sql"
  {
    assert !StartsWith(".sql", ".zip");
    assert !StartsWith("sql", ".zip") && !StartsWith("ql", ".zip") && !StartsWith("l", ".zip");
    assert ".sql"[1..] == "sql" && "sql"[1..] == "ql" && "ql"[1..] == "l" && "l"[1..] == "";
    ReplaceAllHead(".zip", "", ".sql");
    assert ".zip" + "" == ".zip";
  }

  /** A slash-led string keeps its slash under the rewrite. */
  lemma ReplaceZipAfterSlash(rest: string)
    ensures TempDumpPath("/" + rest) == "/" + TempDumpPath(rest)
  {
    var s := "/" + rest;
    assert s[0] == '/';
    assert !StartsWith(s, ".zip");
    assert s[1..] == rest;
  }

  /** A `.zip`-free head followed by a character that cannot continue a
      `.zip` match passes through the rewrite unchanged. */
  lemma TempPathPeel(a: string, b: string)
    requires !Contains(a, ".zip")
    requires |b| > 0 && b[0] !in "zip"
    ensures TempDumpPath(a + b) == a + TempDumpPath(b)
  {
    assert ".zip"[1..] == "zip";
    ReplaceAllSplit(a, b, ".zip", ".sql");
    ReplaceAllAbsent(a, ".zip", ".sql");
  }

  /** The rewrite of a database name followed by `.sql.zip`. */
  lemma TempPathOfTail(db: string)
    requires !Contains(db, ".zip")
    ensures TempDumpPath("_" + (db + ArtifactSuffix)) == "_" + db + ".sql.sql"
  {
    var z := db + ArtifactSuffix;
    var s := "_" + z;
    assert s[0] == '_' && !StartsWith(s, ".zip") && s[1..] == z;
    assert TempDumpPath(s) == "_" + TempDumpPath(z);
    TempPathPeel(db, ArtifactSuffix);
    assert ArtifactSuffix == ".sql" + ".zip";
    ReplaceAllSplit(".sql", ".zip", ".zip", ".sql");
    ReplaceZipOnSql();
  }

  /** The rewrite of an artifact basename whose database name is free of
      `.zip`. */
  lemma TempNameOfArtifact(t: DateTime, db: string)
    requires !Contains(db, ".zip")
    ensures TempDumpPath(ArtifactName(t, db)) == FileStamp(t) + "_" + db + ".sql.sql"
  {
    var stamp := FileStamp(t);
    var tail := "_" + (db + ArtifactSuffix);
    assert ArtifactName(t, db) == stamp + tail;
    assert IsDigit(stamp[0]);
    MissingFirstCharNotContained(stamp, ".zip");
    TempPathPeel(stamp, tail);
    TempPathOfTail(db);
  }

  /** The rewrite of a relative name joined onto a `.zip`-free directory
      touches only the name. */
  lemma TempPathOfJoin(dumpDir: string, name: string)
    requires !Contains(dumpDir, ".zip")
    requires |name| > 0 && IsDigit(name[0])
    ensures TempDumpPath(Join(dumpDir, name)) == JoinPrefix(dumpDir) + TempDumpPath(name)
  {
    JoinRelative(dumpDir, name);
    if dumpDir == "" {
      assert Join(dumpDir, name) == name;
    } else if EndsWith(dumpDir, "/") {
      TempPathPeel(dumpDir, name);
    } else {
      assert Join(dumpDir, name) == dumpDir + ("/" + name);
      TempPathPeel(dumpDir, "/" + name);
      ReplaceZipAfterSlash(name);
    }
  }

  /** When neither the dump directory nor the database name contains `.zip`,
      the temporary path is the artifact path with only its final `.zip`
      changed to `.sql`: it ends in `.sql.sql`, in the dump directory. */
  lemma TempPathOfArtifactJoin(dumpDir: string, db: string, t: DateTime)
    requires !Contains(dumpDir, ".zip")
    requires !Contains(db, ".zip")
    ensures TempDumpPath(Join(dumpDir, ArtifactName(t, db))) == JoinPrefix(dumpDir) + (FileStamp(t) + "_" + db + ".sql.sql")
  {
    var name := ArtifactName(t, db);
    assert IsDigit(name[0]);
    TempNameOfArtifact(t, db);
    TempPathOfJoin(dumpDir, name);
  }

  lemma TempPathOfArtifact(dumpDir: string, db: string, t: DateTime)
    requires !Contains(dumpDir, ".zip")
    requires !Contains(db, ".zip")
    ensures var p := GenerateBackupFilename(dumpDir, db, t).0;
      && TempDumpPath(p) == Join(dumpDir, FileStamp(t) + "_" + db + ".sql.sql")
      && TempDumpPath(p) == p[..|p| - 4] + ".sql"
      && EndsWith(TempDumpPath(p), ".sql.sql")
  {
    var p := GenerateBackupFilename(dumpDir, db, t).0;
    var tp := TempDumpPath(p);
    var name := ArtifactName(t, db);
    var sqlName := FileStamp(t) + "_" + db + ".sql.sql";
    assert p == Join(dumpDir, name);
    TempPathOfArtifactJoin(dumpDir, db, t);
    assert IsDigit(sqlName[0]) && IsDigit(name[0]);
    JoinRelative(dumpDir, sqlName);
    JoinRelative(dumpDir, name);
    var mid := FileStamp(t) + "_" + db;
    assert name == mid + ArtifactSuffix;
    assert sqlName == mid + ".sql.sql";
    var pre := JoinPrefix(dumpDir);
    assert p == pre + (mid + ArtifactSuffix);
    assert p == (pre + mid) + ArtifactSuffix;
    assert tp == (pre + mid) + ".sql.sql";
    SwapLastExtension(p, tp, pre + mid);
  }

  lemma SwapLastExtension(p: string, tp: string, x: string)
    requires p == x + ".sql.zip"
    requires tp == x + ".sql.sql"
    ensures tp == p[..|p| - 4] + ".sql"
    ensures EndsWith(tp, ".sql.sql")
  {
    assert p[..|p| - 4] == x + ".sql";
  }

  /** The rewrite never leaves a `.zip` ending: the temporary file is never
      itself an archive name, whatever the path. */
  lemma TempPathNotArchive(p: string)
    requires EndsWith(p, ".zip")
    ensures EndsWith(TempDumpPath(p), ".sql")
    ensures !EndsWith(TempDumpPath(p), ".zip")
  {
    var a := p[..|p| - 4];
    assert p == a + ".zip";
    ReplaceAllSplit(a, ".zip", ".zip", ".sql");
    ReplaceZipOnSql();
    var r := TempDumpPath(p);
    assert r[|r| - 4..] == ".sql";
  }

  /** A rewritten path that starts with a character other than `.` starts
      with that same character before the rewrite, and the rest of it is the
      rewrite of the rest. */
  lemma TempPathHead(p: string, c: char)
    requires c != '.'
    ensures var r := TempDumpPath(p);
      |r| > 0 && r[0] == c ==> |p| > 0 && p[0] == c && r == [c] + TempDumpPath(p[1..])
  {
  }

  /** Four characters spelling `.zip` make a string start with `.zip`. */
  lemma StartsWithZip(p: string)
    ensures 4 <= |p| && p[0] == '.' && p[1] == 'z' && p[2] == 'i' && p[3] == 'p' ==> StartsWith(p, ".zip")
  {
    if 4 <= |p| {
      assert |p[..4]| == 4;
    }
  }

  /** A `.zip`-free tail behind a head none of whose positions starts a
      `.zip` gives a `.zip`-free whole. */
  lemma NoZipBehindHead(head: string, rest: string)
    requires !Contains(rest, ".zip")
    requires forall i :: 0 <= i < |head| ==> !OccursAt(head + rest, ".zip", i)
    ensures !Contains(head + rest, ".zip")
  {
    var s := head + rest;
    forall i | |head| <= i <= |s|
      ensures !OccursAt(s, ".zip", i)
    {
      if i + 4 <= |s| {
        assert s[i..i + 4] == rest[i - |head|..i - |head| + 4];
      }
      assert !OccursAt(rest, ".zip", i - |head|);
    }
  }

  /** A rewritten string that does not start with `.zip` does not start
      with it after the rewrite either: a `.zip` there would have to come
      from the same four characters before it. */
  lemma NoZipAtHead(p: string)
    requires |p| > 0 && !StartsWith(p, ".zip")
    ensures !OccursAt(TempDumpPath(p), ".zip", 0)
  {
    var r := TempDumpPath(p);
    var rest := TempDumpPath(p[1..]);
    assert r == [p[0]] + rest;
    StartsWithZip(p);
    TempPathHead(p[1..], 'z');
    if |p| >= 2 {
      assert p[1..][1..] == p[2..];
      TempPathHead(p[2..], 'i');
    }
    if |p| >= 3 {
      assert p[2..][1..] == p[3..];
      TempPathHead(p[3..], 'p');
    }
    if 4 <= |r| {
      var w := r[0..4];
      assert w[0] == p[0] && w[1] == rest[0] && w[2] == rest[1] && w[3] == rest[2];
    }
  }

  /** No `.zip` is left anywhere in the rewritten path: every occurrence is
      rewritten, and no `.sql` put in its place can join its neighbours
      into a new one. */
  lemma {:induction false} TempPathHasNoZip(p: string)
    ensures !Contains(TempDumpPath(p), ".zip")
    decreases |p|
  {
    var r := TempDumpPath(p);
    if |p| == 0 {
      assert r == "";
    } else if StartsWith(p, ".zip") {
      var rest := TempDumpPath(p[4..]);
      TempPathHasNoZip(p[4..]);
      assert r == ".sql" + rest;
      forall i | 0 <= i < 4
        ensures !OccursAt(".sql" + rest, ".zip", i)
      {
        if i + 4 <= |r| {
          assert r[i..i + 4][1] == r[i + 1] && r[i..i + 4][0] == r[i];
          assert r[i] == ".sql"[i];
        }
      }
      NoZipBehindHead(".sql", rest);
    } else {
      var rest := TempDumpPath(p[1..]);
      TempPathHasNoZip(p[1..]);
      assert r == [p[0]] + rest;
      NoZipAtHead(p);
      NoZipBehindHead([p[0]], rest);
    }
  }

  /** A dump directory whose own name ends in `.zip` is rewritten too: the
      temporary dump lands in a sibling directory ending in `.sql`. */
  lemma TempPathLeavesZipDirectory(parent: string, db: string, t: DateTime)
    requires !Contains(parent, ".zip")
    ensures StartsWith(TempDumpPath(GenerateBackupFilename(parent + ".zip", db, t).0), parent + ".sql/")
  {
    var dumpDir := parent + ".zip";
    var name := ArtifactName(t, db);
    assert IsDigit(name[0]);
    JoinRelative(dumpDir, name);
    assert dumpDir[|dumpDir| - 1] == 'p';
    assert JoinPrefix(dumpDir) == dumpDir + "/";
    var p := GenerateBackupFilename(dumpDir, db, t).0;
    assert p == parent + (".zip" + ("/" + name));
    ReplaceAllSplit(parent, ".zip" + ("/" + name), ".zip", ".sql");
    ReplaceAllAbsent(parent, ".zip", ".sql");
    ReplaceAllHead(".zip", "/" + name, ".sql");
    ReplaceZipAfterSlash(name);
    var r := TempDumpPath(p);
    assert r == parent + ".sql" + "/" + TempDumpPath(name);
    assert r[..|parent| + 5] == parent + ".sql/";
  }
}

=== FILE: optional.dfy ===
/** An optional value. An environment variable may be unset, a name may
    not parse, and a FINAL_STATUS record may have no backup file. */
module Optional {

  datatype Option<+T> = None | Some(value: T) {

    /** The wrapped value, or `default` when there is none. */
    function GetOr(default: T): T
    {
      match this
      case Some(v) => v
      case None => default
    }
  }
}

=== FILE: orchestrator.dfy ===
/** The run as a whole: `main` walks the configuration slots `DB1_*`,
    `DB2_*`, ... and for each database probes the connection, names the
    artifact, performs the dump (`perform_backup`), writes its own
    FINAL_STATUS record for the database and prunes old artifacts. `error_exit` ends the run
    with exit status 1 after one failure record. Every outside effect (the
    directory set-up, the `mysqldump --version` check, the probe, the clock,
    the dump, the listing and the removals) is an input; the run is the
    sequence of FINAL_STATUS records it writes, its exit status and the dump
    directory it leaves. */
module Orchestrator {
  import opened Optional
  import opened Text
  import opened Clock
  import opened Naming
  import opened Status
  import opened Probe
  import opened Retention

  // ---------------------------------------------------------------------
  // Configuration
  // ---------------------------------------------------------------------

  /** The environment variables of one slot `DB<i>_*` that shape the run; an
      unset variable is `None`. */
  datatype Slot = Slot(name: Option<string>, host: Option<string>, maxBackups: Option<int>)

  /** One database the run processes. */
  datatype Target = Target(name: string, host: string, maxBackups: int)

  const DefaultHost: string := "localhost"
  const DefaultMaxBackups: int := 3

  /** The slots the loop visits: slot 1, 2, ... up to, not including, the
      first whose name is unset or empty (slots past the end of `slots` are
      unset). A set but empty host stays empty; only an unset one defaults. */
  function Targets(slots: seq<Slot>): (ts: seq<Target>)
    ensures |ts| <= |slots|
    ensures forall i :: 0 <= i < |ts| ==> slots[i].name == Some(ts[i].name) && ts[i].name != ""
    ensures forall i :: 0 <= i < |ts| ==>
      ts[i].host == slots[i].host.GetOr(DefaultHost) && ts[i].maxBackups == slots[i].maxBackups.GetOr(DefaultMaxBackups)
    ensures |ts| < |slots| ==> slots[|ts|].name == None || slots[|ts|].name == Some("")
  {
    if |slots| == 0 || slots[0].name == None || slots[0].name == Some("") then []
    else
      var s := slots[0];
      [Target(s.name.value, s.host.GetOr(DefaultHost), s.maxBackups.GetOr(DefaultMaxBackups))] + Targets(slots[1..])
  }

  function TargetNames(ts: seq<Target>): (ns: seq<string>)
    ensures |ns| == |ts|
    ensures forall i :: 0 <= i < |ts| ==> ns[i] == ts[i].name
  {
    seq(|ts|, i requires 0 <= i < |ts| => ts[i].name)
  }

  // ---------------------------------------------------------------------
  // perform_backup
  // ---------------------------------------------------------------------

  /** How the dump-and-compress block ended: normally, with `mysqldump`
      exiting non-zero (its stderr decoded), with a `PermissionError`, or with
      any other exception (its rendered text). A non-zero exit is raised
      before the archive is opened; the other two can be raised before it is
      opened or after (while compressing into it, or while removing the
      temporary dump), and `archiveCreated` says which. */
  datatype DumpResult =
    | DumpOk
    | DumpExitNonZero(stderr: string)
    | DumpPermissionDenied(archiveCreated: bool)
    | DumpCrashed(detail: string, archiveCreated: bool)

  /** The outcomes that go through `error_exit`. */
  predicate IsFatal(d: DumpResult) {
    d.DumpPermissionDenied? || d.DumpCrashed?
  }

  /** A fatal outcome raised once `zipfile.ZipFile(backup_file, 'w')` had
      created (or truncated) the artifact: a complete or partial archive is
      left on disk. */
  predicate LeavesArchive(d: DumpResult) {
    IsFatal(d) && d.archiveCreated
  }

  function SuccessMessage(backupFile: string): string {
    "Backup successful: " + backupFile
  }

  function DumpFailureMessage(db: string, stderr: string): string {
    "Backup failed for database '" + db + "'. Error: " + stderr
  }

  function PermissionMessage(backupFile: string): string {
    "Permission denied: Cannot write to " + backupFile + ". Check your file permissions."
  }

  function UnexpectedMessage(detail: string): string {
    "Unexpected error during backup process: " + detail
  }

  /** What `perform_backup` does: it either returns a status and a message,
      having written the records `written` itself, or ends the run through
      `error_exit`, which writes `record`. */
  datatype BackupOutcome =
    | Returned(outcome: Outcome, message: string, written: seq<StatusRecord>)
    | Exited(record: StatusRecord)

  function PerformBackup(db: string, backupFile: string, dump: DumpResult): (b: BackupOutcome)
    ensures b.Exited? <==> IsFatal(dump)
    ensures b.Returned? ==> (b.outcome == Success <==> dump == DumpOk)
    ensures b.Returned? && b.outcome == Success ==>
      b.written == [] && StartsWith(b.message, "Backup successful: ") && EndsWith(b.message, backupFile)
      && |b.message| == |"Backup successful: "| + |backupFile|
    ensures b.Returned? && b.outcome == Failure ==>
      b.written == [StatusRecord(Failure, Some(backupFile), b.message)] && EndsWith(b.message, dump.stderr)
    ensures b.Exited? ==> b.record.outcome == Failure && b.record.file == Some(backupFile)
  {
    match dump
    case DumpOk =>
      var m := SuccessMessage(backupFile);
      assert m[|m| - |backupFile|..] == backupFile;
      Returned(Success, m, [])
    case DumpExitNonZero(stderr) =>
      var m := DumpFailureMessage(db, stderr);
      assert m[|m| - |stderr|..] == stderr;
      Returned(Failure, m, [StatusRecord(Failure, Some(backupFile), m)])
    case DumpPermissionDenied(_) =>
      Exited(StatusRecord(Failure, Some(backupFile), PermissionMessage(backupFile)))
    case DumpCrashed(detail, _) =>
      Exited(StatusRecord(Failure, Some(backupFile), UnexpectedMessage(detail)))
  }

  // ---------------------------------------------------------------------
  // One database
  // ---------------------------------------------------------------------

  /** Everything the outside world decides while one database is processed:
      the probe's result, the clock reading that names the artifact, how the
      dump ended, the modification time the new artifact gets, where the
      next listing shows it among the files already there (`os.listdir`
      promises no order), and how the retention pass's listing and removals
      go. */
  datatype StepInput = StepInput(
    connect: ConnectResult,
    now: DateTime,
    dump: DumpResult,
    artifactMtime: int,
    listedAt: nat,
    listingFails: bool,
    deleteFailures: map<string, DeleteError>)

  /** The records one database produced, whether it ended the run, and the
      dump directory afterwards. */
  datatype StepResult = StepResult(records: seq<StatusRecord>, fatal: bool, dir: seq<Entry>)

  /** The dump directory after an artifact named `name` is written: a file
      of that name is replaced, and the next listing shows the artifact at
      position `at` among the other files (last when `at` is past them). */
  function Store(dir: seq<Entry>, name: string, mtime: int, at: nat): (d: seq<Entry>)
    ensures Entry(name, mtime) in d
    ensures forall e :: e in d ==> e == Entry(name, mtime) || (e in dir && e.name != name)
    ensures forall e :: e in dir && e.name != name ==> e in d
    ensures DistinctNames(dir) ==> DistinctNames(d)
    ensures var others := Unlink(dir, {name});
      && |d| == |others| + 1
      && d[if at < |others| then at else |others|] == Entry(name, mtime)
  {
    var rest := Unlink(dir, {name});
    var x := Entry(name, mtime);
    var d := InsertAt(rest, x, at);
    UnlinkMembership(dir, {name});
    InsertAtMembership(rest, x, at);
    assert DistinctNames(dir) ==> DistinctNames(d) by {
      if DistinctNames(dir) {
        UnlinkDistinct(dir, {name});
        InsertAtDistinct(rest, x, at);
      }
    }
    d
  }

  /** `perform_backup` for the artifact at `path`, `main`'s own
      `write_final_status` for the database and the retention pass. An
      archive written or left behind joins the listing only when it lands in
      the dump directory itself, that is when the database name holds no
      `/`. A fatal outcome skips retention. */
  function BackupStep(t: Target, input: StepInput, path: string, dir: seq<Entry>): (s: StepResult)
    ensures s.fatal <==> IsFatal(input.dump)
    ensures |s.records| >= 1
    ensures s.fatal && !LeavesArchive(input.dump) ==> s.dir == dir
  {
    match PerformBackup(t.name, path, input.dump)
    case Exited(rec) =>
      var left :=
        if LeavesArchive(input.dump) && '/' !in t.name then Store(dir, ArtifactName(input.now, t.name), input.artifactMtime, input.listedAt)
        else dir;
      StepResult([rec], true, left)
    case Returned(outcome, message, written) =>
      var stored :=
        if outcome == Success && '/' !in t.name then Store(dir, ArtifactName(input.now, t.name), input.artifactMtime, input.listedAt)
        else dir;
      var pruned := CleanOldBackups(stored, t.name, t.maxBackups, input.listingFails, input.deleteFailures);
      StepResult(written + [StatusRecord(outcome, Some(path), message)], false, pruned.remaining)
  }

  /** One iteration of the loop in `main`: the probe's records, then the
      backup step's. */
  function ProcessDatabase(t: Target, input: StepInput, dumpDir: string, dir: seq<Entry>): (s: StepResult)
    ensures s.fatal <==> IsFatal(input.dump)
    ensures |s.records| > |CheckDatabaseConnection(t.name, input.connect)|
    ensures s.fatal && !LeavesArchive(input.dump) ==> s.dir == dir
  {
    var probe := CheckDatabaseConnection(t.name, input.connect);
    var b := BackupStep(t, input, GenerateBackupFilename(dumpDir, t.name, input.now).0, dir);
    StepResult(probe + b.records, b.fatal, b.dir)
  }

  /** The number of SUCCESS records among `rs`. */
  function Successes(rs: seq<StatusRecord>): nat {
    if |rs| == 0 then 0 else (if rs[0].outcome == Success then 1 else 0) + Successes(rs[1..])
  }

  lemma {:induction false} SuccessesAppend(a: seq<StatusRecord>, b: seq<StatusRecord>)
    ensures Successes(a + b) == Successes(a) + Successes(b)
    decreases |a|
  {
    if |a| > 0 {
      SuccessesAppend(a[1..], b);
      assert (a + b)[1..] == a[1..] + b;
    } else {
      assert a + b == b;
    }
  }

  /** What one database writes: the probe's record when the connection
      fails, then one record when the dump succeeds or ends the run, and two
      identical failure records (`perform_backup`'s and `main`'s) when `mysqldump` exits
      non-zero. The one SUCCESS record appears exactly when the dump
      succeeds. */
  lemma StepRecords(t: Target, input: StepInput, dumpDir: string, dir: seq<Entry>)
    ensures var s := ProcessDatabase(t, input, dumpDir, dir);
      var probe := CheckDatabaseConnection(t.name, input.connect);
      && |probe| == (if input.connect.Connected? then 0 else 1)
      && |s.records| == |probe| + (if input.dump.DumpExitNonZero? then 2 else 1)
      && Successes(s.records) == (if input.dump == DumpOk then 1 else 0)
  {
    var probe := CheckDatabaseConnection(t.name, input.connect);
    var b := BackupStep(t, input, GenerateBackupFilename(dumpDir, t.name, input.now).0, dir);
    SuccessesAppend(probe, b.records);
    assert Successes(probe) == 0;
    if input.dump.DumpExitNonZero? {
      assert b.records == [b.records[0]] + [b.records[1]];
      SuccessesAppend([b.records[0]], [b.records[1]]);
    }
  }

  /** A non-zero `mysqldump` exit does not end the run: the database gets
      two identical failure records naming the artifact path, and retention
      still runs. */
  lemma DumpFailureContinues(t: Target, input: StepInput, path: string, dir: seq<Entry>)
    requires input.dump.DumpExitNonZero?
    ensures var s := BackupStep(t, input, path, dir);
      var rec := StatusRecord(Failure, Some(path), DumpFailureMessage(t.name, input.dump.stderr));
      && !s.fatal
      && s.records == [rec, rec]
      && s.dir == CleanOldBackups(dir, t.name, t.maxBackups, input.listingFails, input.deleteFailures).remaining
  {
  }

  /** A permission error or an unexpected exception in the dump block writes
      one failure record naming the artifact path and ends the run without a
      retention pass. Raised before the archive was opened, it leaves the
      directory as it was; raised after, the archive, complete or partial,
      is left in place of any file of its name, and nothing else changes. */
  lemma FatalEndsStep(t: Target, input: StepInput, path: string, dir: seq<Entry>)
    requires IsFatal(input.dump)
    ensures var s := BackupStep(t, input, path, dir);
      var msg := if input.dump.DumpPermissionDenied? then PermissionMessage(path) else UnexpectedMessage(input.dump.detail);
      && s.fatal
      && s.records == [StatusRecord(Failure, Some(path), msg)]
      && (!(LeavesArchive(input.dump) && '/' !in t.name) ==> s.dir == dir)
    ensures var s := BackupStep(t, input, path, dir);
      var x := Entry(ArtifactName(input.now, t.name), input.artifactMtime);
      LeavesArchive(input.dump) && '/' !in t.name ==>
        && x in s.dir
        && (forall e :: e in s.dir ==> e == x || (e in dir && e.name != x.name))
        && (forall e :: e in dir && e.name != x.name ==> e in s.dir)
  {
  }

  /** An archive left behind by a fatal outcome is one of its database's
      retention candidates, and when its modification time is the newest it
      is the newest candidate the next run sees. */
  lemma LeftArchiveIsNewestCandidate(t: Target, input: StepInput, path: string, dir: seq<Entry>)
    requires LeavesArchive(input.dump) && '/' !in t.name
    requires forall e :: e in dir ==> e.mtime < input.artifactMtime
    ensures var s := BackupStep(t, input, path, dir);
      var x := Entry(ArtifactName(input.now, t.name), input.artifactMtime);
      && x in Candidates(s.dir, t.name)
      && forall e :: e in Candidates(s.dir, t.name) && e != x ==> e.mtime < x.mtime
  {
    var s := BackupStep(t, input, path, dir);
    var x := Entry(ArtifactName(input.now, t.name), input.artifactMtime);
    FatalEndsStep(t, input, path, dir);
    OwnArtifactIsCandidate(input.now, t.name);
    CandidatesMembership(s.dir, t.name);
  }

  /** The probe never decides anything but its own record: two runs of one
      database that differ only in the connection result agree on whether
      the run ends, on the records after the probe's, and on the directory. */
  lemma ProbeNeverAborts(t: Target, input: StepInput, other: ConnectResult, dumpDir: string, dir: seq<Entry>)
    ensures var s1 := ProcessDatabase(t, input, dumpDir, dir);
      var s2 := ProcessDatabase(t, input.(connect := other), dumpDir, dir);
      && s1.fatal == s2.fatal
      && s1.dir == s2.dir
      && s1.records[|CheckDatabaseConnection(t.name, input.connect)|..]
         == s2.records[|CheckDatabaseConnection(t.name, other)|..]
  {
    var p1 := CheckDatabaseConnection(t.name, input.connect);
    var p2 := CheckDatabaseConnection(t.name, other);
    var path := GenerateBackupFilename(dumpDir, t.name, input.now).0;
    var b := BackupStep(t, input, path, dir);
    assert BackupStep(t, input.(connect := other), path, dir) == b;
    assert (p1 + b.records)[|p1|..] == b.records;
    assert (p2 + b.records)[|p2|..] == b.records;
  }

  /** A successful backup of a database whose name holds no `/`, with a
      retention limit of at least one and a modification time newer than
      everything already in the directory, leaves its own artifact in place
      after the retention pass, whatever removals fail. */
  lemma NewArtifactSurvivesRetention(t: Target, input: StepInput, path: string, dir: seq<Entry>)
    requires input.dump == DumpOk && '/' !in t.name && t.maxBackups >= 1
    requires DistinctNames(dir)
    requires forall e :: e in dir ==> e.mtime < input.artifactMtime
    ensures Entry(ArtifactName(input.now, t.name), input.artifactMtime) in BackupStep(t, input, path, dir).dir
  {
    var x := Entry(ArtifactName(input.now, t.name), input.artifactMtime);
    var stored := Store(dir, x.name, x.mtime, input.listedAt);
    OwnArtifactIsCandidate(input.now, t.name);
    NewestCandidateSurvives(stored, t.name, t.maxBackups, input.listingFails, input.deleteFailures, x);
  }

  /** A successful backup of a new artifact followed by a clean retention
      pass: with `M` artifacts of the database already present and a limit
      `N >= 1`, exactly `min(M + 1, N)` candidates remain, the new artifact
      among them. */
  lemma BackupThenPruneKeepsLimit(t: Target, input: StepInput, path: string, dir: seq<Entry>)
    requires input.dump == DumpOk && '/' !in t.name && t.maxBackups >= 1
    requires !input.listingFails && input.deleteFailures == map[]
    requires DistinctNames(dir)
    requires forall e :: e in dir ==> e.mtime < input.artifactMtime && e.name != ArtifactName(input.now, t.name)
    ensures var s := BackupStep(t, input, path, dir);
      var m := |Candidates(dir, t.name)| + 1;
      && |Candidates(s.dir, t.name)| == (if m > t.maxBackups then t.maxBackups else m)
      && Entry(ArtifactName(input.now, t.name), input.artifactMtime) in Candidates(s.dir, t.name)
  {
    var x := Entry(ArtifactName(input.now, t.name), input.artifactMtime);
    var stored := Store(dir, x.name, x.mtime, input.listedAt);
    UnlinkIdentity(dir, {x.name});
    assert stored == InsertAt(dir, x, input.listedAt);
    OwnArtifactIsCandidate(input.now, t.name);
    CandidatesInsertAt(dir, x, input.listedAt, t.name);
    AllRemovalsSucceedLeavesLimit(stored, t.name, t.maxBackups, map[]);
    NewArtifactSurvivesRetention(t, input, path, dir);
    var s := BackupStep(t, input, path, dir);
    CandidatesMembership(s.dir, t.name);
  }

  /** A new artifact whose modification time ties with another candidate's
      is not safe: with a limit of one, the artifact listed first is
      removed, so where the listing shows the new one decides whether the
      backup just made survives. */
  lemma TieListingDecidesNewArtifact(t: Target, input: StepInput, path: string, a: Entry)
    requires input.dump == DumpOk && '/' !in t.name && t.maxBackups == 1
    requires !input.listingFails && input.deleteFailures == map[]
    requires IsCandidate(a.name, t.name) && a.mtime == input.artifactMtime
    requires a.name != ArtifactName(input.now, t.name)
    ensures var x := Entry(ArtifactName(input.now, t.name), input.artifactMtime);
      var s := BackupStep(t, input, path, [a]);
      && (input.listedAt == 0 ==> s.dir == [a])
      && (input.listedAt >= 1 ==> s.dir == [x])
  {
    var x := Entry(ArtifactName(input.now, t.name), input.artifactMtime);
    assert Unlink([a], {x.name}) == [a];
    OwnArtifactIsCandidate(input.now, t.name);
    if input.listedAt == 0 {
      assert Store([a], x.name, x.mtime, input.listedAt) == [x, a];
      TieRemovesFirstListed(x, a, t.name);
    } else {
      assert Store([a], x.name, x.mtime, input.listedAt) == [a, x];
      TieRemovesFirstListed(a, x, t.name);
    }
  }

  /** A step keeps the directory's names distinct. */
  lemma StepKeepsDistinctNames(t: Target, input: StepInput, path: string, dir: seq<Entry>)
    requires DistinctNames(dir)
    ensures DistinctNames(BackupStep(t, input, path, dir).dir)
  {
    match PerformBackup(t.name, path, input.dump)
    case Exited(_) =>
    case Returned(o, _, _) =>
      var stored :=
        if o == Success && '/' !in t.name then Store(dir, ArtifactName(input.now, t.name), input.artifactMtime, input.listedAt)
        else dir;
      var r := CleanOldBackups(stored, t.name, t.maxBackups, input.listingFails, input.deleteFailures);
      if r.report.Pruned? {
        UnlinkDistinct(stored, Removed(r.report.attempts));
      }
  }

  // ---------------------------------------------------------------------
  // The loop and main
  // ---------------------------------------------------------------------

  /** The databases processed, in order, with the records of each. */
  datatype LoopResult = LoopResult(processed: seq<string>, perDatabase: seq<seq<StatusRecord>>, aborted: bool, dir: seq<Entry>)

  /** One database's processing as the loop sees it: target, step input and
      directory in, records, fatality and directory out. */
  type Stepper = (Target, StepInput, seq<Entry>) -> StepResult

  /** The loop's step in a run whose dump directory is `dumpDir`. */
  function StepIn(dumpDir: string): Stepper {
    (t: Target, input: StepInput, d: seq<Entry>) => ProcessDatabase(t, input, dumpDir, d)
  }

  /** A step ends the run exactly when its dump is fatal, and then its last
      record is the `error_exit` record. */
  ghost predicate StopsOnFatalDump(step: Stepper) {
    forall t, input, d :: (step(t, input, d).fatal <==> IsFatal(input.dump))
      && (step(t, input, d).fatal ==> EndsInFatalRecord(step(t, input, d).records))
  }

  /** A step writes one SUCCESS record when its dump succeeds, none
      otherwise. */
  ghost predicate OneSuccessOnDumpOk(step: Stepper) {
    forall t, input, d :: Successes(step(t, input, d).records) == (if input.dump == DumpOk then 1 else 0)
  }

  /** The loop of `main` over the targets, each with its own step input; the
      dump directory each step leaves is the next one's. */
  function RunTargets(ts: seq<Target>, steps: seq<StepInput>, dir: seq<Entry>, step: Stepper): (r: LoopResult)
    requires |steps| >= |ts|
    ensures |r.processed| == |r.perDatabase| <= |ts|
    ensures forall i :: 0 <= i < |r.processed| ==> r.processed[i] == ts[i].name
    ensures !r.aborted ==> |r.processed| == |ts|
    ensures r.aborted ==> |r.processed| >= 1
    decreases |ts|
  {
    if |ts| == 0 then LoopResult([], [], false, dir)
    else
      var s := step(ts[0], steps[0], dir);
      if s.fatal then LoopResult([ts[0].name], [s.records], true, s.dir)
      else
        var rest := RunTargets(ts[1..], steps[1..], s.dir, step);
        var r := LoopResult([ts[0].name] + rest.processed, [s.records] + rest.perDatabase, rest.aborted, rest.dir);
        assert forall i :: 1 <= i < |r.processed| ==> r.processed[i] == rest.processed[i - 1] && ts[1..][i - 1] == ts[i];
        r
  }

  /** The group of records ends in a failure record that names a backup
      file, as every `error_exit` from `perform_backup` writes. */
  predicate EndsInFatalRecord(rs: seq<StatusRecord>) {
    |rs| >= 1 && rs[|rs| - 1].outcome == Failure && rs[|rs| - 1].file.Some?
  }

  /** The loop ends exactly at the first database whose dump is fatal: every
      database before it was processed and continued, the last group ends in
      the `error_exit` record, and without a fatal dump every target is
      processed. */
  lemma {:induction false} RunStopsAtFirstFatal(ts: seq<Target>, steps: seq<StepInput>, dir: seq<Entry>, step: Stepper)
    requires |steps| >= |ts|
    requires StopsOnFatalDump(step)
    ensures var r := RunTargets(ts, steps, dir, step);
      && (r.aborted ==> IsFatal(steps[|r.processed| - 1].dump))
      && (forall k :: 0 <= k < |r.processed| - 1 ==> !IsFatal(steps[k].dump))
      && (!r.aborted ==> forall k :: 0 <= k < |ts| ==> !IsFatal(steps[k].dump))
      && (r.aborted ==> EndsInFatalRecord(r.perDatabase[|r.perDatabase| - 1]))
    decreases |ts|
  {
    if |ts| > 0 {
      var s := step(ts[0], steps[0], dir);
      if !s.fatal {
        RunStopsAtFirstFatal(ts[1..], steps[1..], s.dir, step);
        assert forall k :: 1 <= k < |ts| ==> steps[1..][k - 1] == steps[k];
      }
    }
  }

  /** Each processed database writes exactly one SUCCESS record when its
      dump succeeds and none otherwise. */
  lemma {:induction false} SuccessesPerDatabase(ts: seq<Target>, steps: seq<StepInput>, dir: seq<Entry>, step: Stepper)
    requires |steps| >= |ts|
    requires OneSuccessOnDumpOk(step)
    ensures var r := RunTargets(ts, steps, dir, step);
      forall i :: 0 <= i < |r.perDatabase| ==>
        Successes(r.perDatabase[i]) == (if steps[i].dump == DumpOk then 1 else 0)
    decreases |ts|
  {
    if |ts| > 0 {
      var s := step(ts[0], steps[0], dir);
      if !s.fatal {
        SuccessesPerDatabase(ts[1..], steps[1..], s.dir, step);
        assert forall k :: 1 <= k < |ts| ==> steps[1..][k - 1] == steps[k];
      }
    }
  }

  /** The step of a run has both properties the loop relies on. */
  lemma StepInBehaves(dumpDir: string)
    ensures StopsOnFatalDump(StepIn(dumpDir))
    ensures OneSuccessOnDumpOk(StepIn(dumpDir))
  {
    forall t, input, d ensures
      && (StepIn(dumpDir)(t, input, d).fatal <==> IsFatal(input.dump))
      && (StepIn(dumpDir)(t, input, d).fatal ==> EndsInFatalRecord(StepIn(dumpDir)(t, input, d).records))
      && Successes(StepIn(dumpDir)(t, input, d).records) == (if input.dump == DumpOk then 1 else 0)
    {
      StepRecords(t, input, dumpDir, d);
      if IsFatal(input.dump) {
        var path := GenerateBackupFilename(dumpDir, t.name, input.now).0;
        FatalEndsStep(t, input, path, d);
        var probe := CheckDatabaseConnection(t.name, input.connect);
        assert ProcessDatabase(t, input, dumpDir, d).records == probe + BackupStep(t, input, path, d).records;
      }
    }
  }

  /** How `check_mysqldump` went: the tool answered, exited non-zero, was not
      found, or raised something its handlers do not catch. */
  datatype ToolCheck = ToolAvailable | ToolFailed | ToolNotFound | ToolCrashed

  const ToolFailedMessage: string :=
    "mysqldump command is not available or failed to execute. Please ensure MySQL is installed and mysqldump is in your PATH."
  const ToolNotFoundMessage: string :=
    "mysqldump command not found. Please ensure MySQL is installed and mysqldump is in your PATH."

  /** A whole run: the records written before the loop, those of each
      processed database, the exit status and the dump directory at the end. */
  datatype Run = Run(preamble: seq<StatusRecord>, processed: seq<string>, perDatabase: seq<seq<StatusRecord>>,
                     exitCode: int, dir: seq<Entry>)

  /** `main`. A failed directory set-up exits with status 1 before any
      record; an uncaught exception from the tool check does too. */
  function Main(setupOk: bool, tool: ToolCheck, slots: seq<Slot>, dumpDir: string, dir: seq<Entry>,
                steps: seq<StepInput>): (r: Run)
    requires |steps| >= |Targets(slots)|
    ensures r.exitCode == 0 || r.exitCode == 1
    ensures r.exitCode == 0 <==>
      setupOk && tool == ToolAvailable && forall k :: 0 <= k < |Targets(slots)| ==> !IsFatal(steps[k].dump)
    ensures |r.perDatabase| == |r.processed| <= |Targets(slots)|
    ensures forall i :: 0 <= i < |r.processed| ==> r.processed[i] == Targets(slots)[i].name
    ensures r.exitCode == 0 ==> r.processed == TargetNames(Targets(slots))
    ensures !(setupOk && tool == ToolAvailable) ==> r.processed == [] && r.dir == dir
    ensures setupOk && (tool == ToolFailed || tool == ToolNotFound) ==>
      |r.preamble| == 1 && r.preamble[0].outcome == Failure && r.preamble[0].file == None
    ensures !setupOk || tool == ToolAvailable || tool == ToolCrashed ==> r.preamble == []
  {
    if !setupOk then Run([], [], [], 1, dir)
    else
      match tool
      case ToolFailed => Run([StatusRecord(Failure, None, ToolFailedMessage)], [], [], 1, dir)
      case ToolNotFound => Run([StatusRecord(Failure, None, ToolNotFoundMessage)], [], [], 1, dir)
      case ToolCrashed => Run([], [], [], 1, dir)
      case ToolAvailable =>
        var ts := Targets(slots);
        var loop := RunTargets(ts, steps, dir, StepIn(dumpDir));
        StepInBehaves(dumpDir);
        RunStopsAtFirstFatal(ts, steps, dir, StepIn(dumpDir));
        Run([], loop.processed, loop.perDatabase, if loop.aborted then 1 else 0, loop.dir)
  }

  /** A fatal dump of the `k`-th target, with none before it, ends the run
      with exit status 1 right after that database: no later database is
      processed, and its last record is the `error_exit` failure record. */
  lemma FatalDumpEndsRun(tool: ToolCheck, slots: seq<Slot>, dumpDir: string, dir: seq<Entry>,
                         steps: seq<StepInput>, k: nat)
    requires tool == ToolAvailable
    requires |steps| >= |Targets(slots)|
    requires k < |Targets(slots)| && IsFatal(steps[k].dump)
    requires forall j :: 0 <= j < k ==> !IsFatal(steps[j].dump)
    ensures var r := Main(true, tool, slots, dumpDir, dir, steps);
      && r.exitCode == 1
      && |r.processed| == k + 1
      && r.processed[k] == Targets(slots)[k].name
      && EndsInFatalRecord(r.perDatabase[k])
  {
    StepInBehaves(dumpDir);
    RunStopsAtFirstFatal(Targets(slots), steps, dir, StepIn(dumpDir));
  }

  /** Each database a run processes writes at most one SUCCESS record, and
      exactly one when its dump succeeds. */
  lemma AtMostOneSuccessPerDatabase(setupOk: bool, tool: ToolCheck, slots: seq<Slot>, dumpDir: string,
                                    dir: seq<Entry>, steps: seq<StepInput>)
    requires |steps| >= |Targets(slots)|
    ensures var r := Main(setupOk, tool, slots, dumpDir, dir, steps);
      forall i :: 0 <= i < |r.perDatabase| ==>
        Successes(r.perDatabase[i]) <= 1 && (Successes(r.perDatabase[i]) == 1 <==> steps[i].dump == DumpOk)
  {
    if setupOk && tool == ToolAvailable {
      StepInBehaves(dumpDir);
      SuccessesPerDatabase(Targets(slots), steps, dir, StepIn(dumpDir));
    }
  }
}

=== FILE: probe.dfy ===
/** The connectivity probe, `check_database_connection`: the result of
    `mysql.connector.connect` is an input (success, or an error with its
    MySQL errno and its rendered text). A failure is classified by errno
    into a diagnostic hint, reported as one FINAL_STATUS record with no
    backup file, and never stops the run. */
module Probe {
  import opened Optional
  import opened Text
  import opened Status

  /** What `mysql.connector.connect(...)` followed by `close()` did. */
  datatype ConnectResult =
    | Connected
    | ConnectError(errno: int, text: string)

  /** The classes of connection failure the script tells apart. */
  datatype Diagnosis = BadCredentials | UnknownDatabase | ServerUnreachable | Unclassified

  /** The errno classification: 1045 access denied, 1049 unknown database,
      2003 server unreachable; every other errno is unclassified. */
  function Diagnose(errno: int): (d: Diagnosis)
    ensures d == BadCredentials <==> errno == 1045
    ensures d == UnknownDatabase <==> errno == 1049
    ensures d == ServerUnreachable <==> errno == 2003
    ensures d == Unclassified <==> errno !in {1045, 1049, 2003}
  {
    if errno == 1045 then BadCredentials
    else if errno == 1049 then UnknownDatabase
    else if errno == 2003 then ServerUnreachable
    else Unclassified
  }

  /** The suffix appended to the failure message for each class. */
  function Hint(d: Diagnosis): string {
    match d
    case BadCredentials => " (Check your username and password)"
    case UnknownDatabase => " (Database does not exist)"
    case ServerUnreachable => " (Cannot connect to the database server)"
    case Unclassified => ""
  }

  /** The fixed head of every connection-failure message. */
  function FailurePrefix(db: string): string {
    "Database connection failed for '" + db + "': "
  }

  /** The message of a failed probe: the fixed head, the error's text, then
      the hint for its errno. */
  function ConnectionFailureMessage(db: string, errno: int, text: string): (m: string)
    ensures StartsWith(m, FailurePrefix(db))
    ensures EndsWith(m, Hint(Diagnose(errno)))
    ensures |m| == |FailurePrefix(db)| + |text| + |Hint(Diagnose(errno))|
    ensures m[|FailurePrefix(db)|..|m| - |Hint(Diagnose(errno))|] == text
  {
    var m := FailurePrefix(db) + text + Hint(Diagnose(errno));
    assert m[..|FailurePrefix(db)|] == FailurePrefix(db);
    m
  }

  /** `check_database_connection`: the FINAL_STATUS records the probe writes.
      A failure writes exactly one failure record, without a backup file,
      whose message starts with the fixed head; a success writes none. */
  function CheckDatabaseConnection(db: string, r: ConnectResult): (written: seq<StatusRecord>)
    ensures r.Connected? ==> written == []
    ensures r.ConnectError? ==> |written| == 1
    ensures r.ConnectError? ==> written[0].outcome == Failure && written[0].file == None
    ensures r.ConnectError? ==> StartsWith(written[0].message, FailurePrefix(db))
    ensures r.ConnectError? ==> EndsWith(written[0].message, Hint(Diagnose(r.errno)))
  {
    match r
    case Connected => []
    case ConnectError(errno, text) =>
      [StatusRecord(Failure, None, ConnectionFailureMessage(db, errno, text))]
  }

  /** Only the three recognised errnos add a hint; any other errno leaves the
      message as the head and the error's text alone. */
  lemma HintOnlyForKnownErrnos(db: string, errno: int, text: string)
    ensures Hint(Diagnose(errno)) == "" <==> errno !in {1045, 1049, 2003}
    ensures errno !in {1045, 1049, 2003} ==> ConnectionFailureMessage(db, errno, text) == FailurePrefix(db) + text
  {
  }

  /** The hints are pairwise different, so for a given error text the message
      pins down the classification. */
  lemma MessageDeterminesDiagnosis(db: string, e1: int, e2: int, text: string)
    requires ConnectionFailureMessage(db, e1, text) == ConnectionFailureMessage(db, e2, text)
    ensures Diagnose(e1) == Diagnose(e2)
  {
    var m := ConnectionFailureMessage(db, e1, text);
    var n := |FailurePrefix(db)| + |text|;
    assert m[n..] == Hint(Diagnose(e1));
    assert ConnectionFailureMessage(db, e2, text)[n..] == Hint(Diagnose(e2));
  }
}

=== FILE: retention.dfy ===
/** Retention, `clean_old_backups(dbname, max_backups)`: list the dump
    directory, keep the names that end in `.zip` and contain the database
    name as a substring, stable-sort them by modification time, and try to
    remove the oldest `len(files) - max_backups` of them one by one, logging
    and skipping a removal that fails. The directory listing with its
    modification times, whether listing fails, and which removals fail are
    inputs. */
module Retention {
  import opened Optional
  import opened Text
  import opened Clock
  import opened Naming

  /** One directory entry: its name and its modification time. */
  datatype Entry = Entry(name: string, mtime: int)

  /** No two entries share a name, as in any real directory. */
  predicate DistinctNames(s: seq<Entry>) {
    forall i, j :: 0 <= i < j < |s| ==> s[i].name != s[j].name
  }

  /** The script's grouping test: `f.endswith(".zip") and dbname in f`. */
  predicate IsCandidate(name: string, db: string) {
    EndsWith(name, ".zip") && Contains(name, db)
  }

  /** The listing filtered by `IsCandidate`, in listing order. */
  function Candidates(dir: seq<Entry>, db: string): (c: seq<Entry>)
    ensures |c| <= |dir|
    ensures forall i :: 0 <= i < |c| ==> c[i] in dir && IsCandidate(c[i].name, db)
  {
    if |dir| == 0 then []
    else (if IsCandidate(dir[0].name, db) then [dir[0]] else []) + Candidates(dir[1..], db)
  }

  /** The filter keeps every candidate entry as often as the listing holds it
      and drops every other entry. */
  lemma {:induction false} CandidatesCount(dir: seq<Entry>, db: string, e: Entry)
    ensures multiset(Candidates(dir, db))[e] == if IsCandidate(e.name, db) then multiset(dir)[e] else 0
    decreases |dir|
  {
    if |dir| > 0 {
      CandidatesCount(dir[1..], db, e);
      assert dir == [dir[0]] + dir[1..];
    }
  }

  lemma {:induction false} CandidatesAppend(a: seq<Entry>, b: seq<Entry>, db: string)
    ensures Candidates(a + b, db) == Candidates(a, db) + Candidates(b, db)
    decreases |a|
  {
    if |a| > 0 {
      CandidatesAppend(a[1..], b, db);
      assert (a + b)[1..] == a[1..] + b;
    } else {
      assert a + b == b;
    }
  }

  lemma CandidatesMembership(dir: seq<Entry>, db: string)
    ensures forall e :: e in Candidates(dir, db) <==> e in dir && IsCandidate(e.name, db)
  {
    forall e ensures e in Candidates(dir, db) <==> e in dir && IsCandidate(e.name, db) {
      CandidatesCount(dir, db, e);
    }
  }

  lemma {:induction false} CandidatesDistinct(dir: seq<Entry>, db: string)
    requires DistinctNames(dir)
    ensures DistinctNames(Candidates(dir, db))
    decreases |dir|
  {
    if |dir| > 0 {
      var rest := Candidates(dir[1..], db);
      CandidatesDistinct(dir[1..], db);
      assert forall i :: 0 <= i < |rest| ==> rest[i].name != dir[0].name by {
        forall i | 0 <= i < |rest| ensures rest[i].name != dir[0].name {
          var j :| 0 <= j < |dir[1..]| && dir[1..][j] == rest[i];
          assert dir[j + 1] == rest[i];
        }
      }
    }
  }

  // ---------------------------------------------------------------------
  // Stable sort by modification time: `sorted(files, key=os.path.getmtime)`
  // ---------------------------------------------------------------------

  predicate SortedByMtime(s: seq<Entry>) {
    forall i, j :: 0 <= i < j < |s| ==> s[i].mtime <= s[j].mtime
  }

  /** The entries of `s` whose modification time is `k`, in order. Two
      orderings of the same entries agree on this for every `k` exactly when
      one is a stable rearrangement of the other. */
  function WithMtime(s: seq<Entry>, k: int): seq<Entry> {
    if |s| == 0 then []
    else (if s[0].mtime == k then [s[0]] else []) + WithMtime(s[1..], k)
  }

  /** Inserts `x` into a sorted sequence in front of every entry that is not
      older than it. */
  function InsertByMtime(x: Entry, s: seq<Entry>): (r: seq<Entry>)
    requires SortedByMtime(s)
    ensures |r| == |s| + 1
    ensures SortedByMtime(r)
    ensures multiset(r) == multiset(s) + multiset{x}
  {
    if |s| == 0 || x.mtime <= s[0].mtime then [x] + s
    else
      var rest := InsertByMtime(x, s[1..]);
      assert s == [s[0]] + s[1..];
      assert forall j :: 0 <= j < |rest| ==> s[0].mtime <= rest[j].mtime by {
        forall j | 0 <= j < |rest| ensures s[0].mtime <= rest[j].mtime {
          assert rest[j] in multiset(rest);
        }
      }
      [s[0]] + rest
  }

  /** Insertion sort by modification time. */
  function SortByMtime(s: seq<Entry>): (r: seq<Entry>)
    ensures |r| == |s|
    ensures SortedByMtime(r)
    ensures multiset(r) == multiset(s)
  {
    if |s| == 0 then []
    else
      assert s == [s[0]] + s[1..];
      InsertByMtime(s[0], SortByMtime(s[1..]))
  }

  /** With distinct names no entry occurs twice. */
  lemma {:induction false} DistinctNamesAtMostOnce(a: seq<Entry>, e: Entry)
    requires DistinctNames(a)
    ensures multiset(a)[e] <= 1
    decreases |a|
  {
    if |a| > 0 {
      DistinctNamesAtMostOnce(a[1..], e);
      assert a == [a[0]] + a[1..];
      assert forall k :: 0 <= k < |a[1..]| ==> a[1..][k] != a[0] by {
        forall k | 0 <= k < |a[1..]| ensures a[1..][k] != a[0] {
          assert a[k + 1].name != a[0].name;
        }
      }
      assert multiset(a[1..])[a[0]] == 0;
    }
  }

  /** Rearranging a sequence keeps its names distinct. */
  lemma DistinctNamesOfRearrangement(a: seq<Entry>, b: seq<Entry>)
    requires multiset(a) == multiset(b)
    requires DistinctNames(a)
    ensures DistinctNames(b)
  {
    forall i, j | 0 <= i < j < |b| ensures b[i].name != b[j].name {
      DistinctNamesAtMostOnce(a, b[j]);
      assert b == b[..j] + [b[j]] + b[j + 1..];
      assert multiset(b[..j])[b[j]] == 0;
      assert b[i] in b[..j];
      assert b[i] in multiset(a) && b[j] in multiset(a);
      var p :| 0 <= p < |a| && a[p] == b[i];
      var q :| 0 <= q < |a| && a[q] == b[j];
      assert p != q;
    }
  }

  lemma {:induction false} InsertStable(x: Entry, s: seq<Entry>, k: int)
    requires SortedByMtime(s)
    ensures WithMtime(InsertByMtime(x, s), k) == (if x.mtime == k then [x] else []) + WithMtime(s, k)
    decreases |s|
  {
    if |s| == 0 || x.mtime <= s[0].mtime {
      assert ([x] + s)[1..] == s;
    } else {
      var rest := InsertByMtime(x, s[1..]);
      var tail := WithMtime(s[1..], k);
      InsertStable(x, s[1..], k);
      assert WithMtime(rest, k) == (if x.mtime == k then [x] else []) + tail;
      assert ([s[0]] + rest)[1..] == rest;
      assert WithMtime(s, k) == (if s[0].mtime == k then [s[0]] else []) + tail;
      if s[0].mtime == k {
        assert x.mtime != k;
        assert WithMtime([s[0]] + rest, k) == [s[0]] + WithMtime(rest, k);
      } else {
        assert WithMtime([s[0]] + rest, k) == WithMtime(rest, k);
      }
    }
  }

  /** The sort is stable: entries with equal modification times keep their
      listing order. */
  lemma {:induction false} SortStable(s: seq<Entry>, k: int)
    ensures WithMtime(SortByMtime(s), k) == WithMtime(s, k)
    decreases |s|
  {
    if |s| > 0 {
      SortStable(s[1..], k);
      InsertStable(s[0], SortByMtime(s[1..]), k);
    }
  }

  // ---------------------------------------------------------------------
  // Which candidates are removed
  // ---------------------------------------------------------------------

  /** `len(files[:len(files) - max_backups])` when `len(files) > max_backups`:
      a negative limit makes the slice bound exceed the length, and Python
      clamps it, so every candidate goes. */
  function DeleteCount(m: nat, max: int): nat {
    if m <= max then 0
    else if max >= 0 then m - max
    else m
  }

  /** The sorted candidates split into those slated for removal (the
      oldest) and those kept. */
  datatype Plan = Plan(doomed: seq<Entry>, kept: seq<Entry>)

  function PlanDeletions(dir: seq<Entry>, db: string, max: int): (p: Plan)
    ensures multiset(p.doomed + p.kept) == multiset(Candidates(dir, db))
    ensures SortedByMtime(p.doomed + p.kept)
    ensures max >= 0 ==> |p.doomed| == (if |Candidates(dir, db)| > max then |Candidates(dir, db)| - max else 0)
    ensures max >= 0 ==> |p.kept| == (if |Candidates(dir, db)| > max then max else |Candidates(dir, db)|)
    ensures max < 0 ==> p.kept == [] && |p.doomed| == |Candidates(dir, db)|
  {
    var sorted := SortByMtime(Candidates(dir, db));
    var n := DeleteCount(|sorted|, max);
    assert sorted == sorted[..n] + sorted[n..];
    Plan(sorted[..n], sorted[n..])
  }

  /** Splitting a sorted sequence leaves nothing in the front part newer
      than anything in the back part. */
  lemma SortedSplit(front: seq<Entry>, back: seq<Entry>)
    requires SortedByMtime(front + back)
    ensures forall d, k :: d in front && k in back ==> d.mtime <= k.mtime
  {
    var all := front + back;
    forall d, k | d in front && k in back ensures d.mtime <= k.mtime {
      var i :| 0 <= i < |front| && front[i] == d;
      var j :| 0 <= j < |back| && back[j] == k;
      assert all[i] == d && all[|front| + j] == k;
    }
  }

  /** Every kept candidate is at least as new as every doomed one. */
  lemma PlanKeepsNewest(dir: seq<Entry>, db: string, max: int)
    ensures var p := PlanDeletions(dir, db, max);
      forall d, k :: d in p.doomed && k in p.kept ==> d.mtime <= k.mtime
  {
    var p := PlanDeletions(dir, db, max);
    SortedSplit(p.doomed, p.kept);
  }

  /** Only candidates from the listing are ever slated for removal. */
  lemma PlanDoomsOnlyCandidates(dir: seq<Entry>, db: string, max: int)
    ensures forall e :: e in PlanDeletions(dir, db, max).doomed ==> e in dir && IsCandidate(e.name, db)
  {
    var p := PlanDeletions(dir, db, max);
    CandidatesMembership(dir, db);
    forall e | e in p.doomed ensures e in dir && IsCandidate(e.name, db) {
      assert e in multiset(p.doomed + p.kept);
    }
  }

  /** Over a listing with distinct names, the plan's entries have distinct
      names too. */
  lemma PlanDistinct(dir: seq<Entry>, db: string, max: int)
    requires DistinctNames(dir)
    ensures var p := PlanDeletions(dir, db, max); DistinctNames(p.doomed + p.kept)
  {
    var p := PlanDeletions(dir, db, max);
    CandidatesDistinct(dir, db);
    DistinctNamesOfRearrangement(Candidates(dir, db), p.doomed + p.kept);
  }

  // ---------------------------------------------------------------------
  // Carrying out the removals
  // ---------------------------------------------------------------------

  /** Why one `os.remove` failed. */
  datatype DeleteError = PermissionDenied | OtherError(text: string)

  /** What happened to one removal attempt. */
  datatype DeleteAttempt = Deleted(name: string) | DeleteFailed(name: string, error: DeleteError)

  function Names(s: seq<Entry>): (ns: seq<string>)
    ensures |ns| == |s|
    ensures forall i :: 0 <= i < |s| ==> ns[i] == s[i].name
  {
    seq(|s|, i requires 0 <= i < |s| => s[i].name)
  }

  /** The removal loop with its per-file `try`/`except`: every name is
      attempted, in order; a name listed in `failures` fails with that error
      and the loop goes on. */
  function RemoveEach(names: seq<string>, failures: map<string, DeleteError>): (log: seq<DeleteAttempt>)
    ensures |log| == |names|
    ensures forall i :: 0 <= i < |names| ==> log[i].name == names[i]
    ensures forall i :: 0 <= i < |names| ==> (log[i].Deleted? <==> names[i] !in failures)
    ensures forall i :: 0 <= i < |names| && names[i] in failures ==> log[i] == DeleteFailed(names[i], failures[names[i]])
  {
    if |names| == 0 then []
    else
      var first := if names[0] in failures then DeleteFailed(names[0], failures[names[0]]) else Deleted(names[0]);
      [first] + RemoveEach(names[1..], failures)
  }

  /** The names a removal log actually removed. */
  function Removed(log: seq<DeleteAttempt>): set<string> {
    set i | 0 <= i < |log| && log[i].Deleted? :: log[i].name
  }

  /** The directory after the entries named in `gone` are removed. */
  function Unlink(dir: seq<Entry>, gone: set<string>): (r: seq<Entry>)
    ensures |r| <= |dir|
    ensures forall i :: 0 <= i < |r| ==> r[i] in dir && r[i].name !in gone
  {
    if |dir| == 0 then []
    else (if dir[0].name in gone then [] else [dir[0]]) + Unlink(dir[1..], gone)
  }

  /** Removal drops every entry whose name is gone and keeps every other
      entry as often as the listing holds it. */
  lemma {:induction false} UnlinkCount(dir: seq<Entry>, gone: set<string>, e: Entry)
    ensures multiset(Unlink(dir, gone))[e] == if e.name in gone then 0 else multiset(dir)[e]
    decreases |dir|
  {
    if |dir| > 0 {
      UnlinkCount(dir[1..], gone, e);
      assert dir == [dir[0]] + dir[1..];
    }
  }

  lemma UnlinkMembership(dir: seq<Entry>, gone: set<string>)
    ensures forall e :: e in Unlink(dir, gone) <==> e in dir && e.name !in gone
  {
    forall e ensures e in Unlink(dir, gone) <==> e in dir && e.name !in gone {
      UnlinkCount(dir, gone, e);
    }
  }

  lemma {:induction false} UnlinkDistinct(dir: seq<Entry>, gone: set<string>)
    requires DistinctNames(dir)
    ensures DistinctNames(Unlink(dir, gone))
    decreases |dir|
  {
    if |dir| > 0 {
      var rest := Unlink(dir[1..], gone);
      UnlinkDistinct(dir[1..], gone);
      forall i | 0 <= i < |rest| ensures rest[i].name != dir[0].name {
        var j :| 0 <= j < |dir[1..]| && dir[1..][j] == rest[i];
        assert dir[j + 1] == rest[i];
      }
    }
  }

  /** What the pass reported. */
  datatype PruneReport =
    | ListingFailed                          // the outer `except Exception`
    | NothingToDelete                        // "No old backups to delete."
    | Pruned(attempts: seq<DeleteAttempt>)

  datatype PruneResult = PruneResult(report: PruneReport, remaining: seq<Entry>)

  /** `clean_old_backups`. `listingFails` stands for `os.listdir` or
      `os.path.getmtime` raising, which the outer handler catches before any
      removal; `failures` says which removals raise and how. */
  function CleanOldBackups(dir: seq<Entry>, db: string, max: int, listingFails: bool,
                           failures: map<string, DeleteError>): (r: PruneResult)
    ensures listingFails ==> r == PruneResult(ListingFailed, dir)
    ensures !listingFails && |Candidates(dir, db)| <= max ==> r == PruneResult(NothingToDelete, dir)
    ensures !listingFails && |Candidates(dir, db)| > max ==> r.report.Pruned?
    ensures r.report.Pruned? ==> Names(PlanDeletions(dir, db, max).doomed) == AttemptedNames(r.report.attempts)
    ensures r.report.Pruned? ==> r.remaining == Unlink(dir, Removed(r.report.attempts))
  {
    if listingFails then PruneResult(ListingFailed, dir)
    else if |Candidates(dir, db)| <= max then PruneResult(NothingToDelete, dir)
    else
      var plan := PlanDeletions(dir, db, max);
      var log := RemoveEach(Names(plan.doomed), failures);
      PruneResult(Pruned(log), Unlink(dir, Removed(log)))
  }

  /** On equal modification times the listing order decides: of two
      candidates with the same time and a limit of one, the one listed first
      is removed and the other kept. */
  lemma TieRemovesFirstListed(a: Entry, b: Entry, db: string)
    requires IsCandidate(a.name, db) && IsCandidate(b.name, db)
    requires a.mtime == b.mtime && a.name != b.name
    ensures CleanOldBackups([a, b], db, 1, false, map[]).remaining == [b]
  {
    var dir := [a, b];
    assert dir[1..] == [b];
    assert Candidates(dir, db) == dir;
    assert SortByMtime([b]) == [b];
    assert SortByMtime(dir) == dir;
    var plan := PlanDeletions(dir, db, 1);
    assert plan.doomed == [a];
    var log := RemoveEach(Names(plan.doomed), map[]);
    assert log == [Deleted(a.name)];
    assert Removed(log) == {a.name};
    assert Unlink([b], {a.name}) == [b];
  }

  /** `s` with `x` listed at position `at`, or last when `at` is past the
      end. */
  function InsertAt(s: seq<Entry>, x: Entry, at: nat): (r: seq<Entry>)
    ensures |r| == |s| + 1
    ensures r[if at < |s| then at else |s|] == x
    ensures multiset(r) == multiset(s) + multiset{x}
  {
    var k := if at < |s| then at else |s|;
    assert s == s[..k] + s[k..];
    s[..k] + [x] + s[k..]
  }

  /** Listing a new entry anywhere adds exactly that entry. */
  lemma InsertAtMembership(s: seq<Entry>, x: Entry, at: nat)
    ensures forall e :: e in InsertAt(s, x, at) <==> e in s || e == x
  {
    var k := if at < |s| then at else |s|;
    assert InsertAt(s, x, at) == s[..k] + [x] + s[k..];
    assert s == s[..k] + s[k..];
  }

  /** Listing a new entry anywhere keeps names distinct when its name is
      new. */
  lemma InsertAtDistinct(s: seq<Entry>, x: Entry, at: nat)
    requires DistinctNames(s)
    requires forall i :: 0 <= i < |s| ==> s[i].name != x.name
    ensures DistinctNames(InsertAt(s, x, at))
  {
    assert DistinctNames(s + [x]);
    DistinctNamesOfRearrangement(s + [x], InsertAt(s, x, at));
  }

  /** Listing a new entry anywhere adds it to the candidates exactly when it
      is one. */
  lemma CandidatesInsertAt(s: seq<Entry>, x: Entry, at: nat, db: string)
    ensures |Candidates(InsertAt(s, x, at), db)| == |Candidates(s, db)| + (if IsCandidate(x.name, db) then 1 else 0)
  {
    var k := if at < |s| then at else |s|;
    assert InsertAt(s, x, at) == s[..k] + [x] + s[k..];
    assert s == s[..k] + s[k..];
    CandidatesAppend(s[..k] + [x], s[k..], db);
    CandidatesAppend(s[..k], [x], db);
    CandidatesAppend(s[..k], s[k..], db);
    assert [x][1..] == [];
  }

  /** An entry that is not a candidate is never removed, and nothing
      appears that was not listed. */
  lemma NonCandidatesNeverRemoved(dir: seq<Entry>, db: string, max: int, listingFails: bool,
                                  failures: map<string, DeleteError>)
    ensures var r := CleanOldBackups(dir, db, max, listingFails, failures);
      && (forall e :: e in dir && !IsCandidate(e.name, db) ==> e in r.remaining)
      && (forall e :: e in r.remaining ==> e in dir)
  {
    var r := CleanOldBackups(dir, db, max, listingFails, failures);
    if r.report.Pruned? {
      var log := r.report.attempts;
      var doomed := PlanDeletions(dir, db, max).doomed;
      PlanDoomsOnlyCandidates(dir, db, max);
      UnlinkMembership(dir, Removed(log));
      forall n | n in Removed(log) ensures exists e :: e in doomed && e.name == n {
        var i :| 0 <= i < |log| && log[i].Deleted? && log[i].name == n;
        assert doomed[i].name == Names(doomed)[i];
      }
    }
  }

  /** The names of the attempted removals, in order. */
  function AttemptedNames(log: seq<DeleteAttempt>): (ns: seq<string>)
    ensures |ns| == |log|
    ensures forall i :: 0 <= i < |log| ==> ns[i] == log[i].name
  {
    seq(|log|, i requires 0 <= i < |log| => log[i].name)
  }

  // ---------------------------------------------------------------------
  // Properties of a pass
  // ---------------------------------------------------------------------

  /** With `M` candidates and a limit `N >= 0`: exactly `M - N` removals are
      attempted when `M > N`, none otherwise; a negative limit attempts all
      `M`. The attempts go to the oldest candidates, oldest first, and every
      kept candidate is at least as new as every attempted one. */
  lemma PruneAttemptsOldestSurplus(dir: seq<Entry>, db: string, max: int, failures: map<string, DeleteError>)
    ensures var r := CleanOldBackups(dir, db, max, false, failures);
      var m := |Candidates(dir, db)|;
      var plan := PlanDeletions(dir, db, max);
      && (m <= max ==> r.report == NothingToDelete && r.remaining == dir)
      && (m > max ==>
            && r.report.Pruned?
            && |r.report.attempts| == (if max >= 0 then m - max else m)
            && AttemptedNames(r.report.attempts) == Names(plan.doomed)
            && (forall d, k :: d in plan.doomed && k in plan.kept ==> d.mtime <= k.mtime))
  {
    PlanKeepsNewest(dir, db, max);
  }

  /** A failed removal never stops the others: the attempted names do not
      depend on which removals fail. */
  lemma FailuresDoNotStopRemovals(dir: seq<Entry>, db: string, max: int,
                                  f1: map<string, DeleteError>, f2: map<string, DeleteError>)
    ensures CleanOldBackups(dir, db, max, false, f1).report.Pruned?
        <==> CleanOldBackups(dir, db, max, false, f2).report.Pruned?
    ensures CleanOldBackups(dir, db, max, false, f1).report.Pruned? ==>
      AttemptedNames(CleanOldBackups(dir, db, max, false, f1).report.attempts)
        == AttemptedNames(CleanOldBackups(dir, db, max, false, f2).report.attempts)
  {
  }

  lemma UnlinkAppend(a: seq<Entry>, b: seq<Entry>, gone: set<string>)
    ensures Unlink(a + b, gone) == Unlink(a, gone) + Unlink(b, gone)
    decreases |a|
  {
    if |a| > 0 {
      UnlinkAppend(a[1..], b, gone);
      assert (a + b)[1..] == a[1..] + b;
    } else {
      assert a + b == b;
    }
  }

  lemma {:induction false} UnlinkIdentity(s: seq<Entry>, gone: set<string>)
    requires forall i :: 0 <= i < |s| ==> s[i].name !in gone
    ensures Unlink(s, gone) == s
    decreases |s|
  {
    if |s| > 0 {
      UnlinkIdentity(s[1..], gone);
      assert s == [s[0]] + s[1..];
    }
  }

  lemma {:induction false} UnlinkAll(s: seq<Entry>, gone: set<string>)
    requires forall i :: 0 <= i < |s| ==> s[i].name in gone
    ensures Unlink(s, gone) == []
    decreases |s|
  {
    if |s| > 0 {
      UnlinkAll(s[1..], gone);
    }
  }

  /** Only attempted names are ever removed. */
  lemma RemovedOnlyAttempted(doomed: seq<Entry>, failures: map<string, DeleteError>)
    ensures forall n :: n in Removed(RemoveEach(Names(doomed), failures)) ==>
      exists i :: 0 <= i < |doomed| && doomed[i].name == n
  {
    var log := RemoveEach(Names(doomed), failures);
    forall n | n in Removed(log) ensures exists i :: 0 <= i < |doomed| && doomed[i].name == n {
      var i :| 0 <= i < |log| && log[i].Deleted? && log[i].name == n;
      assert doomed[i].name == Names(doomed)[i];
    }
  }

  /** An attempt whose name does not fail removes that name. */
  lemma RemovedUnlessFailed(doomed: seq<Entry>, failures: map<string, DeleteError>)
    ensures forall i :: 0 <= i < |doomed| && doomed[i].name !in failures ==>
      doomed[i].name in Removed(RemoveEach(Names(doomed), failures))
  {
    var log := RemoveEach(Names(doomed), failures);
    forall i | 0 <= i < |doomed| && doomed[i].name !in failures
      ensures doomed[i].name in Removed(log)
    {
      assert Names(doomed)[i] == doomed[i].name;
      assert log[i].Deleted? && log[i].name == doomed[i].name;
    }
  }

  /** Removing exactly the names of the front part of a sequence with
      distinct names leaves the back part. */
  lemma UnlinkFront(front: seq<Entry>, back: seq<Entry>, gone: set<string>)
    requires DistinctNames(front + back)
    requires forall i :: 0 <= i < |front| ==> front[i].name in gone
    requires forall n :: n in gone ==> exists i :: 0 <= i < |front| && front[i].name == n
    ensures Unlink(front + back, gone) == back
  {
    var all := front + back;
    UnlinkAll(front, gone);
    forall j | 0 <= j < |back| ensures back[j].name !in gone {
      forall i | 0 <= i < |front| ensures front[i].name != back[j].name {
        assert all[i] == front[i] && all[|front| + j] == back[j];
      }
    }
    UnlinkIdentity(back, gone);
    UnlinkAppend(front, back, gone);
  }

  /** Filtering the directory after a removal counts like removing from any
      rearrangement of the filtered directory. */
  lemma CandidatesAfterUnlink(dir: seq<Entry>, db: string, gone: set<string>, all: seq<Entry>)
    requires multiset(all) == multiset(Candidates(dir, db))
    ensures multiset(Candidates(Unlink(dir, gone), db)) == multiset(Unlink(all, gone))
  {
    forall e ensures multiset(Candidates(Unlink(dir, gone), db))[e] == multiset(Unlink(all, gone))[e] {
      CandidatesCount(Unlink(dir, gone), db, e);
      UnlinkCount(dir, gone, e);
      CandidatesCount(dir, db, e);
      UnlinkCount(all, gone, e);
    }
  }

  /** When every attempted removal succeeds and the limit is not negative,
      the candidates left are exactly the kept ones: `min(M, N)` of them,
      the most recently modified. */
  lemma AllRemovalsSucceedLeavesLimit(dir: seq<Entry>, db: string, max: int, failures: map<string, DeleteError>)
    requires DistinctNames(dir)
    requires max >= 0
    requires forall e :: e in PlanDeletions(dir, db, max).doomed ==> e.name !in failures
    ensures var r := CleanOldBackups(dir, db, max, false, failures);
      var m := |Candidates(dir, db)|;
      && multiset(Candidates(r.remaining, db)) == multiset(PlanDeletions(dir, db, max).kept)
      && |Candidates(r.remaining, db)| == (if m > max then max else m)
  {
    var r := CleanOldBackups(dir, db, max, false, failures);
    var plan := PlanDeletions(dir, db, max);
    var all := plan.doomed + plan.kept;
    if |Candidates(dir, db)| > max {
      var gone := Removed(r.report.attempts);
      RemovedUnlessFailed(plan.doomed, failures);
      RemovedOnlyAttempted(plan.doomed, failures);
      PlanDistinct(dir, db, max);
      UnlinkFront(plan.doomed, plan.kept, gone);
      CandidatesAfterUnlink(dir, db, gone, all);
      assert |multiset(Candidates(r.remaining, db))| == |Candidates(r.remaining, db)|;
    } else {
      assert all == plan.kept;
    }
  }

  /** In a sorted sequence with distinct names whose back part is not empty,
      an entry strictly newer than every other entry shares its name with
      nothing in the front part. */
  lemma NewestNotInFront(front: seq<Entry>, back: seq<Entry>, x: Entry)
    requires SortedByMtime(front + back) && DistinctNames(front + back)
    requires |back| >= 1
    requires x in front + back
    requires forall e :: e in front + back && e != x ==> e.mtime < x.mtime
    ensures forall i :: 0 <= i < |front| ==> front[i].name != x.name
  {
    var all := front + back;
    var last := all[|all| - 1];
    forall i | 0 <= i < |front| ensures front[i].name != x.name {
      assert all[i] == front[i];
      assert all[i].mtime <= last.mtime;
      if last == x {
        assert all[i].name != all[|all| - 1].name;
      } else {
        assert last.mtime < x.mtime;
        var q :| 0 <= q < |all| && all[q] == x;
        assert q != i;
      }
    }
  }

  /** A candidate strictly newer than every other entry survives any pass
      with a limit of at least one, whatever removals fail. */
  lemma NewestCandidateSurvives(dir: seq<Entry>, db: string, max: int, listingFails: bool,
                                failures: map<string, DeleteError>, x: Entry)
    requires DistinctNames(dir)
    requires x in dir && IsCandidate(x.name, db)
    requires forall e :: e in dir && e != x ==> e.mtime < x.mtime
    requires max >= 1
    ensures x in CleanOldBackups(dir, db, max, listingFails, failures).remaining
  {
    var r := CleanOldBackups(dir, db, max, listingFails, failures);
    if !listingFails && |Candidates(dir, db)| > max {
      var plan := PlanDeletions(dir, db, max);
      var all := plan.doomed + plan.kept;
      CandidatesMembership(dir, db);
      forall e | e in all ensures e in dir {
        assert e in multiset(all);
      }
      assert x in multiset(all);
      PlanDistinct(dir, db, max);
      NewestNotInFront(plan.doomed, plan.kept, x);
      RemovedOnlyAttempted(plan.doomed, failures);
      UnlinkMembership(dir, Removed(r.report.attempts));
    }
  }

  // ---------------------------------------------------------------------
  // The substring grouping hazard
  // ---------------------------------------------------------------------

  /** Grouping by substring captures other databases' artifacts: when `db`
      occurs inside `other` (as `db1` does in `db10`), every artifact of
      `other` is a retention candidate for `db`, although its name reads back
      as belonging to `other`. */
  lemma SubstringCapturesOtherDatabase(t: DateTime, db: string, other: string)
    requires Valid(t)
    requires Contains(other, db)
    ensures IsCandidate(ArtifactName(t, other), db)
    ensures ParseArtifactName(ArtifactName(t, other)) == Some(ArtifactId(t, other))
  {
    var name := ArtifactName(t, other);
    ContainsWithin(FileStamp(t) + "_", other, ArtifactSuffix, db);
    assert name[|name| - 4..] == ".zip";
    ArtifactNameRoundTrip(t, other);
  }

  /** The concrete case: `db1` captures the artifacts of `db10`. */
  lemma Db1CapturesDb10(t: DateTime)
    requires Valid(t)
    ensures IsCandidate(ArtifactName(t, "db10"), "db1")
    ensures ParseArtifactName(ArtifactName(t, "db10")) == Some(ArtifactId(t, "db10"))
  {
    assert "db10"[0..3] == "db1";
    assert OccursAt("db10", "db1", 0);
    SubstringCapturesOtherDatabase(t, "db1", "db10");
  }

  /** A database's own artifacts are always its candidates. */
  lemma OwnArtifactIsCandidate(t: DateTime, db: string)
    ensures IsCandidate(ArtifactName(t, db), db)
  {
    var name := ArtifactName(t, db);
    ContainsSelf(db);
    ContainsWithin(FileStamp(t) + "_", db, ArtifactSuffix, db);
    assert name[|name| - 4..] == ".zip";
  }
}

=== FILE: status.dfy ===
/** The machine-parsable outcome record, `write_final_status`:
    `FINAL_STATUS | <STATUS> | <YYYY-mm-dd HH:MM:SS> | <file> | <message>`,
    where `<file>` is the basename of the backup file or `N/A` when there is
    none. The record is modelled as data; writing it to the log is the
    caller's business, and the clock reading is a parameter. */
module Status {
  import opened Optional
  import opened Text
  import opened Clock
  import opened Naming

  /** The two status words the script passes. */
  datatype Outcome = Success | Failure

  /** The status as the script spells it before upper-casing. */
  function Label(o: Outcome): string {
    match o
    case Success => "success"
    case Failure => "failure"
  }

  /** One `write_final_status(status, message, backup_file)` call. */
  datatype StatusRecord = StatusRecord(outcome: Outcome, file: Option<string>, message: string)

  const Marker: string := "FINAL_STATUS"
  const Sep: string := " | "

  /** `os.path.basename(backup_file) if backup_file else "N/A"`: both a
      missing and an empty path count as absent. */
  function FileField(file: Option<string>): string {
    match file
    case Some(p) => if p == "" then "N/A" else Basename(p)
    case None => "N/A"
  }

  /** The status word as written: the label upper-cased. */
  lemma UpperLabel(o: Outcome)
    ensures AsciiUpper(Label(o)) == (if o == Success then "SUCCESS" else "FAILURE")
    ensures '|' !in AsciiUpper(Label(o))
  {
    var u := AsciiUpper(Label(o));
    if o == Success {
      assert u[0] == 'S' && u[1] == 'U' && u[2] == 'C' && u[3] == 'C' && u[4] == 'E' && u[5] == 'S' && u[6] == 'S';
    } else {
      assert u[0] == 'F' && u[1] == 'A' && u[2] == 'I' && u[3] == 'L' && u[4] == 'U' && u[5] == 'R' && u[6] == 'E';
    }
  }

  /** The FINAL_STATUS line for `rec` written at instant `now`. */
  function FormatStatusLine(rec: StatusRecord, now: DateTime): (line: string)
    ensures StartsWith(line, Marker + Sep)
    ensures EndsWith(line, Sep + rec.message)
  {
    var line := Marker + Sep + AsciiUpper(Label(rec.outcome)) + Sep + LogStamp(now) + Sep
      + FileField(rec.file) + Sep + rec.message;
    assert line == (Marker + Sep) + (AsciiUpper(Label(rec.outcome)) + Sep + LogStamp(now) + Sep
      + FileField(rec.file) + Sep + rec.message);
    line
  }

  // ---------------------------------------------------------------------
  // Reading a line back, as a monitoring script would
  // ---------------------------------------------------------------------

  /** The fields of a FINAL_STATUS line. */
  datatype ParsedStatus = ParsedStatus(outcome: Outcome, time: string, file: string, message: string)

  /** The position of the first field separator in `s`. */
  function FindSep(s: string): (r: Option<nat>)
    ensures r.Some? ==> OccursAt(s, Sep, r.value)
    ensures r.Some? ==> forall j: nat :: j < r.value ==> !OccursAt(s, Sep, j)
    ensures r.None? ==> forall j: nat :: !OccursAt(s, Sep, j)
    decreases |s|
  {
    if StartsWith(s, Sep) then
      assert s[0..|Sep|] == s[..|Sep|];
      Some(0)
    else if |s| == 0 then None
    else
      assert !OccursAt(s, Sep, 0) by {
        if |Sep| <= |s| {
          assert s[0..|Sep|] == s[..|Sep|];
        }
      }
      OccursAtTailAll(s, Sep);
      match FindSep(s[1..])
      case Some(k) => Some(k + 1)
      case None => None
  }

  /** Splits at the first field separator. */
  function SplitField(s: string): Option<(string, string)> {
    match FindSep(s)
    case Some(k) => Some((s[..k], s[k + |Sep|..]))
    case None => None
  }

  function ParseOutcome(s: string): Option<Outcome> {
    if s == "SUCCESS" then Some(Success)
    else if s == "FAILURE" then Some(Failure)
    else None
  }

  /** Reads a FINAL_STATUS line back into its four fields; the message is
      everything after the fourth separator. */
  function ParseStatusLine(line: string): Option<ParsedStatus> {
    if !StartsWith(line, Marker + Sep) then None
    else
      match SplitField(line[|Marker + Sep|..])
      case None => None
      case Some((status, rest1)) =>
        match SplitField(rest1)
        case None => None
        case Some((time, rest2)) =>
          match SplitField(rest2)
          case None => None
          case Some((file, message)) =>
            match ParseOutcome(status)
            case None => None
            case Some(o) => Some(ParsedStatus(o, time, file, message))
  }

  /** A field free of `|` is split off exactly at the separator that follows
      it. */
  lemma SplitFieldFirst(a: string, b: string)
    requires '|' !in a
    ensures SplitField(a + Sep + b) == Some((a, b))
  {
    var s := a + Sep + b;
    assert s[|a|..|a| + 3] == Sep;
    assert OccursAt(s, Sep, |a|);
    forall j: nat | j < |a|
      ensures !OccursAt(s, Sep, j)
    {
      assert s[j + 1] == if j + 1 < |a| then a[j + 1] else ' ';
      if j + 3 <= |s| {
        assert s[j..j + 3][1] == s[j + 1];
      }
    }
    var r := FindSep(s);
    assert r.Some? && r.value == |a|;
    assert s[..|a|] == a;
    assert s[|a| + 3..] == b;
  }

  /** The line as a marker followed by nested field/separator pairs. */
  lemma FormatStatusLineShape(rec: StatusRecord, now: DateTime)
    ensures FormatStatusLine(rec, now)
         == (Marker + Sep) + (AsciiUpper(Label(rec.outcome)) + Sep
              + (LogStamp(now) + Sep + (FileField(rec.file) + Sep + rec.message)))
  {
    var u, t, f, m := AsciiUpper(Label(rec.outcome)), LogStamp(now), FileField(rec.file), rec.message;
    var rest2 := f + Sep + m;
    var rest1 := t + Sep + rest2;
    assert Marker + Sep + u + Sep + t + Sep == (Marker + Sep) + (u + Sep) + (t + Sep);
    assert Marker + Sep + u + Sep + t + Sep + f + Sep + m
        == ((Marker + Sep) + (u + Sep) + (t + Sep)) + rest2;
    assert (t + Sep) + rest2 == rest1;
    assert ((Marker + Sep) + (u + Sep) + (t + Sep)) + rest2 == (Marker + Sep) + ((u + Sep) + rest1);
  }

  /** Four `|`-free leading fields are read back exactly, whatever the
      message holds. */
  lemma ParseFields(status: string, time: string, file: string, message: string, o: Outcome)
    requires '|' !in status && '|' !in time && '|' !in file
    requires ParseOutcome(status) == Some(o)
    ensures ParseStatusLine((Marker + Sep) + (status + Sep + (time + Sep + (file + Sep + message))))
         == Some(ParsedStatus(o, time, file, message))
  {
    var rest2 := file + Sep + message;
    var rest1 := time + Sep + rest2;
    var rest0 := status + Sep + rest1;
    var line := (Marker + Sep) + rest0;
    assert StartsWith(line, Marker + Sep);
    assert line[|Marker + Sep|..] == rest0;
    SplitFieldFirst(status, rest1);
    SplitFieldFirst(time, rest2);
    SplitFieldFirst(file, message);
  }

  /** The fixed field order: every line the script writes reads back as the
      status, the timestamp, the file field and the message it was made from,
      provided the file field holds no `|` (the message may hold anything). */
  lemma StatusLineRoundTrip(rec: StatusRecord, now: DateTime)
    requires '|' !in FileField(rec.file)
    ensures ParseStatusLine(FormatStatusLine(rec, now))
         == Some(ParsedStatus(rec.outcome, LogStamp(now), FileField(rec.file), rec.message))
  {
    UpperLabel(rec.outcome);
    FormatStatusLineShape(rec, now);
    ParseFields(AsciiUpper(Label(rec.outcome)), LogStamp(now), FileField(rec.file), rec.message, rec.outcome);
  }

  /** The timestamp field of every line the script writes reads back as
      the clock reading the line was written at. */
  lemma StatusLineTime(rec: StatusRecord, now: DateTime)
    requires Valid(now)
    requires '|' !in FileField(rec.file)
    ensures ParseStatusLine(FormatStatusLine(rec, now)).Some?
    ensures ParseLogStamp(ParseStatusLine(FormatStatusLine(rec, now)).value.time) == Some(now)
  {
    StatusLineRoundTrip(rec, now);
    ParseLogStampRoundTrip(now);
  }

  /** The file field of an artifact's record is the artifact's name. */
  lemma FileFieldOfArtifact(dumpDir: string, db: string, t: DateTime)
    requires '/' !in db
    ensures FileField(Some(GenerateBackupFilename(dumpDir, db, t).0)) == ArtifactName(t, db)
  {
    var p := GenerateBackupFilename(dumpDir, db, t).0;
    assert EndsWith(p, "_" + db + ArtifactSuffix);
    assert p != "";
  }
}

=== FILE: text.dfy ===
/** The Python string operations the backup script relies on, over
    `string` (= `seq<char>`): substring containment (`t in s`),
    `startswith`/`endswith`, lexicographic comparison (`<` on `str`),
    `str.replace` and `str.upper` restricted to ASCII. */
module Text {

  /** `t` occurs in `s` starting at index `i`. */
  predicate OccursAt(s: string, t: string, i: nat) {
    i + |t| <= |s| && s[i..i + |t|] == t
  }

  /** Python's `t in s` for two strings. */
  predicate Contains(s: string, t: string) {
    exists i :: 0 <= i <= |s| && OccursAt(s, t, i)
  }

  /** Python's `s.startswith(p)`. */
  predicate StartsWith(s: string, p: string) {
    |p| <= |s| && s[..|p|] == p
  }

  /** Python's `s.endswith(p)`. */
  predicate EndsWith(s: string, p: string) {
    |p| <= |s| && s[|s| - |p|..] == p
  }

  /** Python's `a < b` on strings: code-point lexicographic order, where a
      proper prefix is smaller. */
  predicate LexLess(a: string, b: string)
    decreases |a|
  {
    if |a| == 0 then |b| > 0
    else if |b| == 0 then false
    else if a[0] == b[0] then LexLess(a[1..], b[1..])
    else a[0] < b[0]
  }

  /** Python's `s.replace(pat, rep)` for a non-empty `pat`: scan left to
      right and rewrite every non-overlapping occurrence. */
  function ReplaceAll(s: string, pat: string, rep: string): string
    requires |pat| > 0
    decreases |s|
  {
    if |s| == 0 then ""
    else if StartsWith(s, pat) then rep + ReplaceAll(s[|pat|..], pat, rep)
    else [s[0]] + ReplaceAll(s[1..], pat, rep)
  }

  function UpperChar(c: char): char {
    if 'a' <= c <= 'z' then (c as int - 32) as char else c
  }

  /** Python's `s.upper()` on ASCII text. */
  function AsciiUpper(s: string): (r: string)
    ensures |r| == |s|
    ensures forall i :: 0 <= i < |s| ==> r[i] == UpperChar(s[i])
  {
    seq(|s|, i requires 0 <= i < |s| => UpperChar(s[i]))
  }

  // ---------------------------------------------------------------------
  // Containment
  // ---------------------------------------------------------------------

  /** An occurrence inside `m` is an occurrence inside `p + m + q`. */
  lemma ContainsWithin(p: string, m: string, q: string, t: string)
    requires Contains(m, t)
    ensures Contains(p + m + q, t)
  {
    var i :| 0 <= i <= |m| && OccursAt(m, t, i);
    var s := p + m + q;
    assert s[|p| + i..|p| + i + |t|] == m[i..i + |t|];
    assert OccursAt(s, t, |p| + i);
  }

  /** Every string contains itself. */
  lemma ContainsSelf(s: string)
    ensures Contains(s, s)
  {
    assert OccursAt(s, s, 0);
  }

  /** A string that lacks the first character of `t` cannot contain `t`. */
  lemma MissingFirstCharNotContained(s: string, t: string)
    requires |t| > 0
    requires t[0] !in s
    ensures !Contains(s, t)
  {
    forall i: nat | i <= |s|
      ensures !OccursAt(s, t, i)
    {
      if i + |t| <= |s| {
        assert s[i..i + |t|][0] == s[i];
      }
    }
  }

  // ---------------------------------------------------------------------
  // Lexicographic order
  // ---------------------------------------------------------------------

  /** A common prefix does not change the order of two strings. */
  lemma {:induction false} LexLessCommonPrefix(p: string, s: string, t: string)
    requires LexLess(s, t)
    ensures LexLess(p + s, p + t)
    decreases |p|
  {
    if |p| == 0 {
      assert p + s == s && p + t == t;
    } else {
      LexLessCommonPrefix(p[1..], s, t);
      assert (p + s)[1..] == p[1..] + s;
      assert (p + t)[1..] == p[1..] + t;
    }
  }

  /** Between two strings of equal length, the order of the heads decides the
      order of any extensions. */
  lemma {:induction false} LexLessEqualLengthHeads(p: string, q: string, s: string, t: string)
    requires |p| == |q|
    requires LexLess(p, q)
    ensures LexLess(p + s, q + t)
    decreases |p|
  {
    assert |p| > 0;
    if p[0] == q[0] {
      LexLessEqualLengthHeads(p[1..], q[1..], s, t);
      assert (p + s)[1..] == p[1..] + s;
      assert (q + t)[1..] == q[1..] + t;
    }
  }

  // ---------------------------------------------------------------------
  // Replacement
  // ---------------------------------------------------------------------

  /** Occurrences in a tail are occurrences in the whole, shifted by one. */
  lemma OccursAtTail(s: string, t: string, i: nat)
    requires |s| > 0
    ensures OccursAt(s[1..], t, i) <==> OccursAt(s, t, i + 1)
  {
    if i + 1 + |t| <= |s| {
      assert s[1..][i..i + |t|] == s[i + 1..i + 1 + |t|];
    }
  }

  /** `OccursAtTail` for every position past the first at once. */
  lemma OccursAtTailAll(s: string, t: string)
    requires |s| > 0
    ensures forall i: nat :: 1 <= i ==> (OccursAt(s, t, i) <==> OccursAt(s[1..], t, i - 1))
  {
    forall i: nat | 1 <= i
      ensures OccursAt(s, t, i) <==> OccursAt(s[1..], t, i - 1)
    {
      OccursAtTail(s, t, i - 1);
    }
  }

  /** Without an occurrence of `pat`, replacement leaves the string as it is. */
  lemma {:induction false} ReplaceAllAbsent(s: string, pat: string, rep: string)
    requires |pat| > 0
    requires !Contains(s, pat)
    ensures ReplaceAll(s, pat, rep) == s
    decreases |s|
  {
    if |s| > 0 {
      assert !OccursAt(s, pat, 0);
      assert !StartsWith(s, pat);
      forall i | 0 <= i <= |s[1..]|
        ensures !OccursAt(s[1..], pat, i)
      {
        OccursAtTail(s, pat, i);
        assert !OccursAt(s, pat, i + 1);
      }
      ReplaceAllAbsent(s[1..], pat, rep);
      assert s == [s[0]] + s[1..];
    }
  }

  /** At a cut that no occurrence of `pat` can straddle, a non-empty `a`
      followed by `b` starts with `pat` exactly when `a` does. */
  lemma StartsWithAcrossCut(a: string, b: string, pat: string)
    requires |pat| > 0 && |a| > 0
    requires |b| > 0 && b[0] !in pat[1..]
    ensures StartsWith(a + b, pat) <==> StartsWith(a, pat)
  {
    var s := a + b;
    if |a| < |pat| {
      assert pat[1..][|a| - 1] == pat[|a|];
      assert s[|a|] == b[0];
      if |pat| <= |s| {
        assert s[..|pat|][|a|] == b[0];
      }
    } else {
      assert a[..|pat|] == s[..|pat|];
    }
  }

  /** Replacement distributes over a split point that no occurrence of `pat`
      can straddle: when `b` starts with a character that appears nowhere in
      `pat` after its first position, no match begins in `a` and ends in `b`. */
  lemma {:induction false} ReplaceAllSplit(a: string, b: string, pat: string, rep: string)
    requires |pat| > 0
    requires |b| > 0 && b[0] !in pat[1..]
    ensures ReplaceAll(a + b, pat, rep) == ReplaceAll(a, pat, rep) + ReplaceAll(b, pat, rep)
    decreases |a|
  {
    if |a| == 0 {
      assert a + b == b;
    } else {
      var s := a + b;
      StartsWithAcrossCut(a, b, pat);
      if StartsWith(a, pat) {
        assert s[|pat|..] == a[|pat|..] + b;
        ReplaceAllSplit(a[|pat|..], b, pat, rep);
      } else {
        assert s[1..] == a[1..] + b;
        ReplaceAllSplit(a[1..], b, pat, rep);
      }
    }
  }

  /** A string that starts with `pat` has its head rewritten. */
  lemma ReplaceAllHead(pat: string, rest: string, rep: string)
    requires |pat| > 0
    ensures ReplaceAll(pat + rest, pat, rep) == rep + ReplaceAll(rest, pat, rep)
  {
    var s := pat + rest;
    assert s[..|pat|] == pat;
    assert s[|pat|..] == rest;
  }
}
